=== FILE: README.md ===
# Personal memory assistant — a Dafny model of its core

The application keeps a personal "memory library" of notes and chats about it.
Its parts are:

- a note server (`server.js`). It keeps markdown files in one folder, derives
  each note's title and category, and rewrites titles on update.
- a simplified server (`server-simple.js`). It proxies chat messages to a
  command-line assistant and cleans that tool's output. It lists the same
  notes with a regex-based title and category.
- a serverless memory API (`api/memories.js`) over an in-memory table.
- the React front end (`src/App.jsx`), which contributes:
  - scroll anchoring of the chat panel;
  - the log pane;
  - sending a message with a loading placeholder that is later filled in or
    withdrawn;
  - the relevance ranking of memories for a question;
  - the sensitive-word check of the instruction form.
- a tool server (`search-mcp-server.js`) that answers `web_search` and
  `get_webpage` calls.

The model has one module per part:

| module | part |
|---|---|
| `NoteServer` | the note folder of `server.js` |
| `SimpleServer` | the chat proxy and listing of `server-simple.js` |
| `MemoriesApi` | the handler and table of `api/memories.js` |
| `ChatScroll` | the scroll state of the chat panel |
| `ChatLogs` | the log pane |
| `ChatMessages` | the message list and `handleSendMessage` |
| `MemoryRelevance` | `findRelevantMemories` |
| `SensitiveWords` | the sensitive-word dictionary and the form's check and replace |
| `SearchServer` | the tool dispatch and the two tool handlers |

Some modules are shared:

- `JsText` states the JavaScript string operations the code relies on, as
  functions on `seq<char>`:
  - `trim` and the `\s` class;
  - `includes`, `indexOf`, `startsWith` and `endsWith`;
  - first-occurrence `replace` and global literal replacement;
  - `split` and `join`.
- `Seqs` gives filter, map, `findIndex` and `slice` with negative indices.
- `Wrappers` holds `Option`, which stands for `undefined`.

Objects whose fields the code updates in place are classes:

- the note folder, `NoteServer.NoteFolder`;
- the mock table, `MemoriesApi.MemoryTable`;
- the scroll container and the scroll record, `ChatScroll.Viewport` and
  `ChatScroll.ScrollAnchor`;
- the message list, `ChatMessages.Conversation`;
- the instruction form, `SensitiveWords.InstructionForm`.

Loops of the source are methods whose loop invariants tie them to a
specification function:

- `NoteFolder.ListMemories`;
- `SimpleServer.ListMemories`;
- `MemoryRelevance.FindRelevantMemories`;
- `SensitiveWords.DetectSensitiveWords`;
- `InstructionForm.CheckSensitiveWords`;
- `SearchServer.CollectResults`.

The environment is passed in as parameters:

- file-system reads are a map from file name to content;
- clocks are numbers and strings;
- fetched pages and the output of a spawned process are inputs.

## Model

| member | source | states |
|---|---|---|
| NoteServer.SafeFilename | server.js:40 | the saved name has the length of the requested one; kept characters (`a-zA-Z0-9`, U+4E00–U+9FA5, `.`, `-`) stay, every other character becomes `_` |
| NoteServer.SafeFilenameIdempotent | server.js:40 | sanitising a sanitised name changes nothing |
| NoteServer.SafeFilenameKeepsAllowed | server.js:40 | a name made only of kept characters is saved under itself |
| NoteServer.TitleOf | server.js:71-73 | the title is the text after `# ` on the first line starting with `# `; it falls back to the name without its first `.md` when that text is empty or there is no such line |
| NoteServer.FirstHeadingFound | server.js:72 | `lines.find` stops at the first line that starts with `# ` |
| NoteServer.HeadingText | server.js:72 | `replace('# ', '')` on a heading line leaves the text after the prefix |
| NoteServer.FallbackRemovesFirstExtension | server.js:73 | the fallback removes the first `.md`, not the extension: `v1.mdx.md` gives `v1x.md` |
| NoteServer.FirstMatchingCategory | server.js:75-85 | the category of the first rule whose keyword the name contains; the default when none matches |
| NoteServer.EarlierRuleWins | server.js:76-77 | a name with both 基本信息 and 愿景 is filed under 个人信息 |
| NoteServer.DefaultIsNoRuleCategory | server.js:75-85 | no rule yields the default category 个人记忆 |
| NoteServer.DefaultCategoryIff | server.js:75-85 | the category is the default exactly when the name contains none of the ten keywords |
| NoteServer.FirstRuleIndex | server.js:75-85 | when some rule matches, a first matching rule exists at or before it |
| NoteServer.CategoryOf | server.js:75-85 | the category of the first matching rule of the table; stated by `FirstMatchingCategory` and the lemmas around it |
| NoteServer.RetitleKeepsLines | server.js:128-136 | with a one-line title and a heading present, the update keeps the number of lines; heading lines become `# `+title and other lines are unchanged |
| NoteServer.RetitlePrependsHeading | server.js:137-140 | without a heading line, `# `+title and a blank line are put in front |
| NoteServer.NoTitleKeepsContent | server.js:125-128 | without a title the content is written as given |
| NoteServer.RetitleThenTitle | server.js:125-141 | after an update with a one-line title, the listing reports that title |
| NoteServer.UpdatedContent | server.js:125-141 | the rewritten content; stated by `RetitleKeepsLines`, `RetitlePrependsHeading`, `NoTitleKeepsContent` and `RetitleThenTitle` |
| NoteServer.ListedNotes | server.js:65-99 | each listed note comes from a readable file of the listing, with that name as id and source and that content; every readable name is listed |
| NoteServer.Describe | server.js:70-95 | the note of one file: its name as id and source, its title, content and category |
| NoteServer.Listed | server.js:65-99 | the notes of the readable names in order; stated by `ListedNotes` |
| NoteServer.NoteFolder.SaveMemory | server.js:32-50 | 400 with the folder unchanged when the name or content is missing or empty; otherwise the content is stored under the sanitised name, which is returned |
| NoteServer.NoteFolder.ListMemories | server.js:60-101 | the notes of the `.md` names of the listing in order, skipping unreadable files |
| NoteServer.NoteFolder.UpdateMemory | server.js:109-151 | 400 without a name or content, 404 for a missing file (both leave the folder unchanged); otherwise the file holds the retitled content |
| NoteServer.NoteFolder.DeleteMemory | server.js:159-169 | 404 with the folder unchanged for a missing file; otherwise exactly that file is removed |
| SimpleServer.ParamRun | server-simple.js:70 | the length of the leading run of digits and semicolons: all of it such characters, and the next one not |
| SimpleServer.SgrAt | server-simple.js:70 | a match at the front exactly when the text starts with `ESC [`, digits and semicolons, then `m`; its length is that of the sequence |
| SimpleServer.StripSgr | server-simple.js:69-70 | the cleanup never lengthens the output; what it deletes and keeps is stated by `StripSgrDropsSequence` and `StripSgrPlain` |
| SimpleServer.StripSgrWithoutEsc | server-simple.js:69-70 | text without an escape character passes through unchanged |
| SimpleServer.StripSgrPlain | server-simple.js:70 | a character at which no complete colour sequence starts is kept, an escape included, and the cleanup goes on after it |
| SimpleServer.CursorCodeKept | server-simple.js:70 | the erase-line code `ESC [ 2 K` is not a colour sequence and stays in the reply |
| SimpleServer.StripSgrPlainPrefix | server-simple.js:69-70 | text before the first escape is kept as is |
| SimpleServer.StripSgrDropsSequence | server-simple.js:70 | a complete colour sequence at the front is deleted and the rest is cleaned |
| SimpleServer.ParamRunOver | server-simple.js:70 | the parameter run of a sequence spans exactly its digits and semicolons |
| SimpleServer.ResetIsDropped | server-simple.js:70 | `ESC[m` is deleted entirely |
| SimpleServer.NestedLeavesReset | server-simple.js:69-70 | a sequence nested inside another leaves `ESC[m` after one pass |
| SimpleServer.SinglePassNotIdempotent | server-simple.js:69-71 | the cleanup is not idempotent: cleaning the nested input again changes it |
| SimpleServer.ChatWithQ | server-simple.js:30-85 | 400 for a missing or empty message; 500 when the run fails; otherwise an answer: the cleaned output when that is non-empty, the fixed notice 收到您的消息，Q CLI正在处理中... when it is empty; an answer comes exactly from a given message and a closed run |
| SimpleServer.FirstTitleFound | server-simple.js:101 | the title search stops at the first title line |
| SimpleServer.TitleOf | server-simple.js:101 | the rest of the first line (split at every line terminator) that starts with `# ` and has one more character; otherwise the name without its first `.md` |
| SimpleServer.LineHead | server-simple.js:102 | the longest prefix without a line terminator |
| SimpleServer.CategoryField | server-simple.js:102 | at the first index where `category: ` is followed by a character that ends no line, the rest of that line (non-empty, without a line terminator); none exactly when there is no such index |
| SimpleServer.CategoryOf | server-simple.js:102 | the rest of the line after the first qualifying `category: `; 未分类 when there is none |
| SimpleServer.NamedUncategorised | server-simple.js:102 | a file whose category line says 未分类 is listed like a file with no category line: the fallback cannot tell them apart |
| SimpleServer.CleanOutput | server-simple.js:69-71 | the reply text is the output with colour sequences removed, then trimmed |
| SimpleServer.Describe | server-simple.js:101-112 | the note of one file: its name as id, file name and source, its content, and a non-empty category that is 未分类 when the file has no `category: ` |
| SimpleServer.Listed | server-simple.js:96-116 | the notes of the readable names in order; stated by `ListedNotes` and `ListedFrom` |
| SimpleServer.ListedNotes | server-simple.js:91-116 | each listed note comes from a readable `.md` file of the listing, with its content and a non-empty category; and every readable `.md` file of the listing gets its note |
| SimpleServer.ListedFrom | server-simple.js:96-116 | each note built from a list of names describes a readable file among them, and each readable name among them is described |
| SimpleServer.ListMemories | server-simple.js:91-118 | the notes of the `.md` names of the listing in order, skipping unreadable files: every note describes a readable `.md` file of the listing, and every such file has its note |
| MemoriesApi.Lookup | api/memories.js:56-57 | a field is present exactly when its key is, with the record's value |
| MemoriesApi.DigitChar | api/memories.js:46 | a digit is written as a decimal digit character |
| MemoriesApi.DigitValue | api/memories.js:46 | a digit character is the writing of its value |
| MemoriesApi.DecimalString | api/memories.js:46 | `toString()` of a time: non-empty decimal digits, with a leading `0` only for zero |
| MemoriesApi.ParseDecimalString | api/memories.js:46 | reading the decimal text back gives the number |
| MemoriesApi.DecimalStringInjective | api/memories.js:46 | different times give different identifiers |
| MemoriesApi.NewFilename | api/memories.js:49 | `memory-` + the decimal time + `.json` |
| MemoriesApi.NewFilenameInjective | api/memories.js:49 | two file names agree exactly when their times do |
| MemoriesApi.Created | api/memories.js:45-50 | the new record has the body's keys plus id, timestamp and filename; timestamp and filename are the server's; the id is the body's when it has one, else the time; other body fields are kept |
| MemoriesApi.Merged | api/memories.js:63-67 | the updated record has the stored and the body's keys plus timestamp; body fields override stored ones; timestamp is the server's |
| MemoriesApi.MergedKeepsFilename | api/memories.js:63-67 | an update whose body has no filename keeps the stored filename |
| MemoriesApi.IndexOfFilename | api/memories.js:57-77 | the first index whose record has the filename; none exactly when no record has it |
| MemoriesApi.RemoveAt | api/memories.js:83 | `splice(i, 1)`: the records before `i` stay, those after it move down by one |
| MemoriesApi.RemoveAtMultiset | api/memories.js:83 | removal takes away exactly the one record at `i` |
| MemoriesApi.MissingFilenameFindsNothing | api/memories.js:56-60 | without a filename in the query nothing is found when every record has one |
| MemoriesApi.CreatedIsFound | api/memories.js:51-57 | a created record is found by its new filename when that name was not in use |
| MemoriesApi.MemoryTable.constructor | api/memories.js:6-23 | the two demonstration records, each with a filename and its own timestamp |
| MemoriesApi.MemoryTable.Create | api/memories.js:43-52 | the created record is appended and returned with 201 |
| MemoriesApi.MemoryTable.Update | api/memories.js:54-72 | 404 with the table unchanged when no record has the filename; otherwise the first match is merged and returned with 200 |
| MemoriesApi.MemoryTable.Delete | api/memories.js:74-84 | 404 with the table unchanged when no record has the filename; otherwise the first match is removed and 200 is returned |
| MemoriesApi.MemoryTable.Handle | api/memories.js:25-88 | OPTIONS 200 and GET the table, both with the table unchanged; POST appends the created record and returns it with 201; PUT and DELETE by the query's filename give 404 with the table unchanged when no record has it, otherwise the first match is merged and returned or removed, with 200; any other verb 405 with the table unchanged; every verb keeps each record named |
| ChatScroll.IsAtBottom | src/App.jsx:86-88 | the reader is at the bottom when the visible end is within 20 pixels of the content's end |
| ChatScroll.MaxScrollTop | src/App.jsx:117-118 | the largest offset: the overflow, or 0 when the content fits |
| ChatScroll.ClampScroll | src/App.jsx:118-123 | an assigned offset ends up within `[0, MaxScrollTop]`, unchanged when already inside it |
| ChatScroll.MaxScrollIsBottom | src/App.jsx:86-118 | scrolling to the end always counts as at the bottom |
| ChatScroll.ShiftKeepsDistanceFromBottom | src/App.jsx:105-124 | shifting by the growth keeps the reader's distance from the bottom unless it is clamped |
| ChatScroll.Viewport.ScrollTo | src/App.jsx:118-123 | the container clamps the assigned offset and keeps its sizes |
| ChatScroll.ScrollAnchor.constructor | src/App.jsx:60-65 | nothing measured yet and the reader taken to be at the bottom |
| ChatScroll.ScrollAnchor.Mount | src/App.jsx:154-164 | with messages present the record takes the container's measurements, at the bottom; otherwise nothing changes |
| ChatScroll.ScrollAnchor.OnScroll | src/App.jsx:144-151 | the record takes the reader's offset and whether it is at the bottom |
| ChatScroll.ScrollAnchor.AfterRender | src/App.jsx:91-138 | a reader at the bottom goes to the new bottom and stays there; otherwise growth shifts the offset by the growth (clamped); otherwise the offset stays; the record is refreshed |
| ChatLogs.AddLog | src/App.jsx:733-742 | the new entry first, then the previously shown items, at most twenty in all |
| ChatLogs.NewestFirst | src/App.jsx:741 | the added entries, newest first |
| ChatLogs.AddEachKeepsLatest | src/App.jsx:741 | after several additions the pane shows the newest twenty items: the added entries newest first, then the earlier items |
| ChatLogs.TailLines | src/App.jsx:435 | the shown lines are the last `min(100, n)` of the `n` non-blank lines, as a suffix of them |
| ChatLogs.NonBlankLines | src/App.jsx:435 | the lines that are not blank, in order; stated by `NonBlankLinesAreLines` |
| ChatLogs.NonBlankLinesAreLines | src/App.jsx:435 | every kept line is non-blank and holds no newline |
| ChatLogs.TailLinesAreLines | src/App.jsx:435 | every shown line is non-blank and holds no newline |
| ChatLogs.ShortLogShownWhole | src/App.jsx:435 | a log of at most a hundred lines, none blank, is shown whole |
| ChatMessages.StripKeywords | src/App.jsx:554 | the keyword deletion never lengthens the text and keeps the remaining characters in order |
| ChatMessages.SearchQuery | src/App.jsx:554 | the query is no longer than the message and has no surrounding whitespace |
| ChatMessages.StripKeywordsPlain | src/App.jsx:554 | text without a keyword is left unchanged |
| ChatMessages.LeadingKeywordDropped | src/App.jsx:539-554 | a leading `search:` or 搜索 does not reach the query |
| ChatMessages.SinglePassCanLeaveKeyword | src/App.jsx:554 | one pass over 搜搜索索 leaves 搜索, so the query can still be a search request |
| ChatMessages.KeywordDropped | src/App.jsx:554 | a keyword at the front is deleted as a whole and the deletion goes on after it |
| ChatMessages.StripKeywordsPlainPrefix | src/App.jsx:554 | text at none of whose positions a keyword starts is kept, and the deletion goes on after it |
| ChatMessages.KeywordAfterPlain | src/App.jsx:554 | a keyword after other text is deleted: the text before it is kept and the query is that text followed by the rest without its keywords, trimmed |
| ChatMessages.TrailingKeywordDropped | src/App.jsx:554 | the message `a搜索` asks for `a` |
| ChatMessages.Filled | src/App.jsx:585-626 | same length, identifiers and roles; the matching messages are filled and stop loading; the others are unchanged |
| ChatMessages.FilledIdempotent | src/App.jsx:585-597 | filling a reply twice changes nothing more |
| ChatMessages.Withdrawn | src/App.jsx:635 | exactly the messages with another identifier remain, in order, each as many times as it occurred; none with the identifier remains |
| ChatMessages.WithdrawAfterSend | src/App.jsx:602-635 | a failed chat removes the placeholder and keeps the user's message when the placeholder's identifier was fresh |
| ChatMessages.FillAfterSend | src/App.jsx:543-589 | a reply fills exactly the placeholder the send appended when its identifier was fresh |
| ChatMessages.Conversation.constructor | src/App.jsx:383 | the conversation starts empty |
| ChatMessages.SearchRequestIff | src/App.jsx:539 | a message asks for a search exactly when 搜索 or 查询 occurs at some index or it starts with `search:` |
| ChatMessages.SentMessages | src/App.jsx:529-549 | of the two messages a send builds (`UserMessage` and `Placeholder`): the user's message holds the text as typed with the first clock reading and is not loading; the placeholder is loading, one past the second reading, never a user message, empty for a search and 正在思考中... for a chat (src/App.jsx:602-608); the two differ |
| ChatMessages.Conversation.Send | src/App.jsx:519-609 | a blank or missing text changes nothing; otherwise the user's message and a placeholder (search or chat) are appended, and the pending search query or chat reply is returned |
| ChatMessages.Conversation.Resolve | src/App.jsx:585-626 | the messages become the filled list |
| ChatMessages.Conversation.Withdraw | src/App.jsx:634-635 | the messages become the list without that identifier |
| MemoryRelevance.Lower | src/App.jsx:644 | the lowered text has the same length, and each character is the lowered character at that position |
| MemoryRelevance.Keywords | src/App.jsx:651 | every keyword is longer than one character and has no whitespace |
| MemoryRelevance.KeywordsAreLongWords | src/App.jsx:651 | the keywords are exactly the whitespace-separated words longer than one character, in the order of the question |
| MemoryRelevance.KeywordScore | src/App.jsx:658-664 | a keyword adds nothing exactly when it does not occur in the memory's text, and at least two per occurrence when it does |
| MemoryRelevance.ScoreOf | src/App.jsx:654-667 | scores are never negative |
| MemoryRelevance.ScorePositiveIff | src/App.jsx:656-665 | a memory scores exactly when some keyword occurs in its text |
| MemoryRelevance.Scores | src/App.jsx:654-668 | one scored entry per memory, in order, with that memory's score |
| MemoryRelevance.Insert | src/App.jsx:672 | insertion adds exactly the new entry |
| MemoryRelevance.SortByScore | src/App.jsx:672 | sorting is a permutation |
| MemoryRelevance.InsertDescending | src/App.jsx:672 | insertion keeps the scores descending |
| MemoryRelevance.SortDescending | src/App.jsx:672 | the sorted entries have descending scores |
| MemoryRelevance.FilterCons | src/App.jsx:671 | filtering a list with a first element splits into that element and the rest |
| MemoryRelevance.InsertStable | src/App.jsx:672 | insertion keeps entries of equal score in their order |
| MemoryRelevance.SortStable | src/App.jsx:672 | the sort is stable: entries of one score stay in their stored order |
| MemoryRelevance.Ranked | src/App.jsx:670-673 | no more memories are ranked than are stored; stated further by `RankedSound`, `RankedComplete` and `RankedDescending` |
| MemoryRelevance.Relevant | src/App.jsx:641-676 | never more memories than are stored; stated further by the lemmas below |
| MemoryRelevance.RelevantEmptyIff | src/App.jsx:642-675 | nothing is returned exactly when the query or the store is empty |
| MemoryRelevance.BroadQuestionTakesAll | src/App.jsx:645-649 | a broad or short question brings every memory |
| MemoryRelevance.NoKeywordTakesAll | src/App.jsx:651-652 | a question that is not broad but has no word longer than one character brings every memory |
| MemoryRelevance.SortedScoresFaithful | src/App.jsx:667-672 | every sorted entry is one of the scored memories with its true, positive score |
| MemoryRelevance.RankedDescending | src/App.jsx:670-673 | the ranking lists memories by non-increasing score |
| MemoryRelevance.RankedSound | src/App.jsx:670-673 | every ranked memory is a stored memory that scores |
| MemoryRelevance.RankedComplete | src/App.jsx:670-673 | every stored memory that scores is ranked |
| MemoryRelevance.NothingScoresTakesAll | src/App.jsx:671-675 | when no memory scores the ranking is empty, so the fallback takes all |
| MemoryRelevance.RelevantIsRanking | src/App.jsx:647-675 | for a specific question where some memory scores, the answer is the ranking |
| MemoryRelevance.ScoreMemory | src/App.jsx:656-665 | the `keywords.forEach` loop sums each keyword's score for one memory |
| MemoryRelevance.FindRelevantMemories | src/App.jsx:641-676 | the loops compute the relevance function |
| SensitiveWords.DictionaryWords | src/App.jsx:1587-1612 | 23 entries, each word at least two characters |
| SensitiveWords.DictionaryWordsAreHan | src/App.jsx:1588-1612 | every character of every word is a CJK ideograph |
| SensitiveWords.DictionaryWordsAreLiteral | src/App.jsx:1652-1655 | no word holds a regex metacharacter, so the `RegExp` replacement is literal |
| SensitiveWords.SuggestionsAreLiteral | src/App.jsx:1651-1654 | no suggestion holds `$`, so `replace` inserts it as written, with no `$&` or `$1` expansion |
| SensitiveWords.DictionaryWordsDistinct | src/App.jsx:1588-1612 | the object's keys are distinct |
| SensitiveWords.Detected | src/App.jsx:1614-1620 | the dictionary entries whose word occurs in the text; stated by `DetectedIff` and `DetectedInOrder` |
| SensitiveWords.DetectedIff | src/App.jsx:1614-1620 | a rule is detected exactly when it is in the dictionary and its word occurs |
| SensitiveWords.DetectedInOrder | src/App.jsx:1614-1620 | detections keep dictionary order; none exactly when no word occurs |
| SensitiveWords.DetectSensitiveWords | src/App.jsx:1587-1621 | the loop returns the detections |
| SensitiveWords.CollectMentioned | src/App.jsx:1614-1620 | the loop keeps exactly the rules whose word occurs, in order |
| SensitiveWords.Tagged | src/App.jsx:1637 | each detection tagged with the field |
| SensitiveWords.TaggedIff | src/App.jsx:1637 | a tagged detection carries the field and comes from one of the field's detected rules, and conversely |
| SensitiveWords.Hits | src/App.jsx:1630-1642 | the tagged detections of every filled text field, field by field; stated by `HitsIff` and `HitsHaveWords` |
| SensitiveWords.HitsIff | src/App.jsx:1630-1642 | a hit is reported exactly for a filled text field whose value contains a dictionary word |
| SensitiveWords.HitsHaveWords | src/App.jsx:1630-1642 | every reported word is non-empty |
| SensitiveWords.Replacement | src/App.jsx:1645-1657 | the fields stay the same; when nothing was replaced the values are unchanged; the replaced text is stated by `ReplacementStep` |
| SensitiveWords.ReplacementStep | src/App.jsx:1648-1656 | for each detection in turn: when its word still occurs in its field, that field becomes the global replacement of the word by the suggestion, the other fields stay and the flag is raised; otherwise nothing changes; the flag is raised exactly when some detection replaced |
| SensitiveWords.ReplacementOfOne | src/App.jsx:1648-1656 | one detection whose word occurs in its field replaces it there and raises the flag |
| JsText.ReplaceAllAt | src/App.jsx:1651-1654 | a global replacement keeps the text before the first occurrence, puts the suggestion in its place and goes on after it |
| JsText.ReplaceAllPlainPrefix | src/App.jsx:1651-1654 | text in which the word does not start is kept as it is in front of the replaced rest |
| SensitiveWords.ReplacementKeepsOtherFields | src/App.jsx:1648-1656 | a field with no hit keeps its value |
| SensitiveWords.InstructionForm.constructor | src/App.jsx:1625-1627 | the given values with no detections |
| SensitiveWords.InstructionForm.CheckSensitiveWords | src/App.jsx:1630-1642 | the detections become the hits of all values; the form's values are kept |
| SensitiveWords.InstructionForm.OnValuesChange | src/App.jsx:1732 | the values are taken and re-checked |
| SensitiveWords.InstructionForm.ReplaceSensitiveWords | src/App.jsx:1645-1664 | when something was replaced, the values become the replaced ones (each field's text as `ReplacementStep` states) and are re-checked; otherwise nothing changes |
| SearchServer.Dispatch | search-mcp-server.js:76-83 | the two tool names select their handlers; any other name gives `Unknown tool: ` + name |
| SearchServer.AbsoluteUrl | search-mcp-server.js:112 | the link always starts with `http`, `https:` prefixed only when needed |
| SearchServer.ResultOf | search-mcp-server.js:105-115 | a result exactly for a non-empty trimmed title and a non-empty link, with trimmed texts |
| SearchServer.Pushed | search-mcp-server.js:109-115 | at most one result, the entry's when it has one |
| SearchServer.Results | search-mcp-server.js:104-116 | no more results than entries; every result reportable: a non-empty title and a link starting with `http` |
| SearchServer.ResultsAppend | search-mcp-server.js:104-116 | the results of two runs of elements are the first run's followed by the second's, so results keep the order of their elements |
| SearchServer.ResultsSound | search-mcp-server.js:104-116 | every result is the result of one of the elements |
| SearchServer.ResultsOfComplete | search-mcp-server.js:104-116 | when every entry qualifies, each gives a result |
| SearchServer.Limited | search-mcp-server.js:89-104 | always a prefix of the entries: the first `num_results` of them (all when fewer), the first five when it is missing, and all but the last `-num_results` when it is negative |
| SearchServer.CollectResults | search-mcp-server.js:104-116 | the loop builds the results |
| SearchServer.HandleWebSearch | search-mcp-server.js:87-141 | an error text on failure; otherwise the query, the results of the limited entries and their count |
| SearchServer.CollapseSpace | search-mcp-server.js:162 | never longer, only plain spaces as whitespace, never two in a row, and starting like the input; each run becomes one space by `CollapseRun` |
| SearchServer.CollapseRun | search-mcp-server.js:162 | a run of whitespace before a non-whitespace character or the end becomes exactly one space |
| SearchServer.CollapseWordChar | search-mcp-server.js:162 | a non-whitespace character is kept in front of the collapsed rest |
| SearchServer.TrimStartRun | search-mcp-server.js:162 | trimming the front removes exactly a leading run of whitespace |
| SearchServer.CollapseBetweenWords | search-mcp-server.js:162 | two characters separated by any run of whitespace keep exactly one space between them |
| SearchServer.CollapseKeepsText | search-mcp-server.js:162 | every character that is not whitespace is kept, in order |
| SearchServer.CollapseSpaceKeepsCollapsed | search-mcp-server.js:162 | collapsed text is left unchanged |
| SearchServer.CollapseSpaceIdempotent | search-mcp-server.js:162 | collapsing twice is collapsing once |
| SearchServer.CollapsedInfix | search-mcp-server.js:162 | a piece of collapsed text is collapsed |
| SearchServer.PageContent | search-mcp-server.js:162 | at most 5000 characters, collapsed, not starting with whitespace; empty exactly when the page text is all whitespace; a prefix of the collapsed, trimmed text of exactly 5000 characters when that text is longer, and all of it otherwise |
| SearchServer.TrimCollapsed | search-mcp-server.js:162 | trimming keeps text collapsed |
| SearchServer.TrimCollapseEmptyIff | search-mcp-server.js:162 | collapsed and trimmed text is empty exactly when the input is all whitespace |
| SearchServer.CollapseAllSpace | search-mcp-server.js:162 | collapsing gives nothing or one space exactly for all-whitespace input |
| SearchServer.HandleGetWebpage | search-mcp-server.js:143-188 | an error text on failure; otherwise the url, the trimmed title, the page content and its length, at most 5000 |

## Left out

- Text is `seq<char>`, one element per UTF-16 code unit of the Basic Multilingual Plane. Surrogate pairs are not modelled.
- `toLowerCase` is a parameter `lower`, applied character by character. The Unicode case tables are not modelled.
- MemoryRelevance.KeywordScore: keywords are matched as literal text. In the source a keyword is compiled with `new RegExp(keyword, 'gi')`, so a keyword with regex metacharacters matches differently or throws. The contract bounds the score from below by two points per occurrence instead of stating the sum.
- Clocks are parameters: `Date.now()`, `new Date().toISOString()` and `toLocaleTimeString()`. So are the two readings of the clock in `handleSendMessage`.
- File-system failures outside the modelled cases (the 500 answers of the `catch` blocks) are not modelled. Neither are path resolution of `path.join` (`..` in a name), the `mtime` timestamp of a note listed by server.js, or the `timestamp: Date.now()` of a note listed by server-simple.js (server-simple.js:109), which is dropped rather than taken as a parameter.
- SimpleServer.ChatWithQ: spawning the `q` process, its stderr and the 30-second timeout are folded into the input `Run`. A message that is a non-string JSON value is not modelled.
- The `try`/`catch` 500 answer of `api/memories.js` is not modelled. No modelled step throws.
- The CORS headers are not modelled.
- React rendering is not modelled: the `useLayoutEffect`/`useEffect` scheduling, `requestAnimationFrame` and the debug logging. `ChatScroll.ScrollAnchor.AfterRender` assumes the container's sizes do not change while it runs.
- The network, the HTML parsing by cheerio and the DOM queries are inputs (`Fetch`, `Scraped`). Building the search URL (`encodeURIComponent`) and the reply's JSON text are not modelled.
- The text of the search answer in `handleSendMessage` (the 🔍 and ❌ formatting) is not modelled. `Conversation.Resolve` takes the reply content as input.
- `generateAIResponse` is not modelled. Neither are the message's `references` and `timestamp` fields or the 老祖 session checks.
- Request and form fields are strings or missing. Other JSON value types are not modelled.
- ChatMessages.StripKeywords: its own contract states only that the result is a subsequence of the text; the deletion itself is stated by `KeywordDropped`, `StripKeywordsPlainPrefix`, `StripKeywordsPlain` and `KeywordAfterPlain`.
- ChatMessages.SearchQuery: its own contract states the length and the trimmed ends; which text the query is, is stated by `KeywordAfterPlain` and `LeadingKeywordDropped`.
- MemoryRelevance.Keywords: its own contract states the shape of each keyword; which words are kept is stated by `KeywordsAreLongWords`.
- SearchServer.CollapseSpace: its own contract states the shape of the result. What it is on every input is stated by `CollapseRun` and `CollapseWordChar`, which with the empty text determine it.
- SimpleServer.StripSgr: its contract bounds the length. What it is on every input is stated by `StripSgrDropsSequence` (a complete colour sequence at the front is deleted) and `StripSgrPlain` (any other first character is kept, an escape included), which with the empty text determine it.
- SearchServer.ResultsOfComplete: states only the number of results when every entry qualifies, not the pointwise equality with `ResultOf`.
- SearchServer.Results: its own contract states bounds and per-result properties; the order of the results is stated by `ResultsAppend` and their origin by `ResultsSound`.
- SensitiveWords.Replacement: its own contract states that the fields are kept and that nothing changes without a replacement. The replaced text of each field is stated by `ReplacementStep`, because a contract on the recursive function itself would have to restate its body.
- The message shown after a replacement (`message.success`) and the form's submit are not modelled.

=== FILE: ChatLogs.dfy ===
/**
 * The log pane of the panel: entries the application adds itself, newest
 * first and capped, and the tail of the backend's log text.
 */
module ChatLogs {
  import opened JsText
  import Seqs

  /** An entry added by `addLog`; the identifier and the time of day come from the clock. */
  datatype LogEntry = LogEntry(id: int, kind: string, message: string, details: string, time: string)

  /** The pane shows either added entries or raw lines fetched from the backend. */
  datatype LogItem = Entry(entry: LogEntry) | Line(text: string)

  /** `addLog`: the new entry goes in front of the first nineteen entries shown before. */
  function AddLog(logs: seq<LogItem>, e: LogEntry): (r: seq<LogItem>)
    ensures |r| == if |logs| < 20 then |logs| + 1 else 20
    ensures r[0] == Entry(e)
    ensures r[1..] == logs[..|r| - 1]
  {
    [Entry(e)] + Seqs.Slice(logs, 0, 19)
  }

  /** Adding the entries `es` one after the other, oldest first. */
  function AddEach(logs: seq<LogItem>, es: seq<LogEntry>): seq<LogItem>
  {
    if es == [] then logs else AddLog(AddEach(logs, es[..|es| - 1]), es[|es| - 1])
  }

  /** The entries `es` from the last added to the first. */
  function NewestFirst(es: seq<LogEntry>): (r: seq<LogItem>)
    ensures |r| == |es|
    ensures forall i :: 0 <= i < |r| ==> r[i] == Entry(es[|es| - 1 - i])
  {
    if es == [] then [] else [Entry(es[|es| - 1])] + NewestFirst(es[..|es| - 1])
  }

  /**
   * After at least one addition the pane shows the latest twenty items:
   * the added entries newest first, followed by what was shown before.
   */
  lemma {:induction false} AddEachKeepsLatest(logs: seq<LogItem>, es: seq<LogEntry>)
    requires es != []
    ensures var n := if |es| + |logs| < 20 then |es| + |logs| else 20;
      AddEach(logs, es) == (NewestFirst(es) + logs)[..n]
  {
    var init, e := es[..|es| - 1], es[|es| - 1];
    var n := if |es| + |logs| < 20 then |es| + |logs| else 20;
    assert NewestFirst(es) + logs == [Entry(e)] + (NewestFirst(init) + logs);
    if init == [] {
      assert NewestFirst(init) + logs == logs;
      assert AddEach(logs, es) == AddLog(logs, e);
    } else {
      AddEachKeepsLatest(logs, init);
      assert AddEach(logs, es) == AddLog(AddEach(logs, init), e);
      AddLogOnLatest(AddEach(logs, init), NewestFirst(init) + logs, e);
    }
  }

  /** Adding in front of the latest twenty of `all` gives the latest twenty of `[e] + all`. */
  lemma AddLogOnLatest(x: seq<LogItem>, all: seq<LogItem>, e: LogEntry)
    requires x == all[..if |all| < 20 then |all| else 20]
    ensures AddLog(x, e) == ([Entry(e)] + all)[..if |all| + 1 < 20 then |all| + 1 else 20]
  {
    var n := if |all| + 1 < 20 then |all| + 1 else 20;
    var r := AddLog(x, e);
    assert r == [r[0]] + r[1..];
    assert r[1..] == all[..n - 1];
    assert ([Entry(e)] + all)[..n] == [Entry(e)] + all[..n - 1];
  }

  /** A line of the fetched log that is not blank. */
  predicate NonBlank(line: string)
  {
    Trim(line) != []
  }

  /** The non-blank lines of the fetched log, in order. */
  function NonBlankLines(data: string): seq<string>
  {
    Seqs.Filter(Split(data, Is('\n')), NonBlank)
  }

  /** `split('\n').filter(line => line.trim()).slice(-100)`: the last hundred non-blank lines, or all of them when fewer. */
  function TailLines(data: string): (r: seq<string>)
    ensures var lines := NonBlankLines(data);
      && |r| == (if |lines| < 100 then |lines| else 100)
      && r == lines[|lines| - |r|..]
  {
    var lines := NonBlankLines(data);
    Seqs.SliceLast(lines, 100);
    Seqs.Slice(lines, -100, |lines|)
  }

  /** A piece of text without a newline. */
  predicate OneLine(line: string)
  {
    forall j :: 0 <= j < |line| ==> line[j] != '\n'
  }

  /** Every kept line is non-blank and holds no newline. */
  lemma NonBlankLinesAreLines(data: string)
    ensures forall i :: 0 <= i < |NonBlankLines(data)| ==>
      NonBlank(NonBlankLines(data)[i]) && OneLine(NonBlankLines(data)[i])
  {
    var pieces := Split(data, Is('\n'));
    forall x | x in pieces ensures OneLine(x) {
      var k :| 0 <= k < |pieces| && pieces[k] == x;
    }
  }

  /** Every shown line is non-blank and holds no newline. */
  lemma TailLinesAreLines(data: string)
    ensures forall i :: 0 <= i < |TailLines(data)| ==> NonBlank(TailLines(data)[i]) && OneLine(TailLines(data)[i])
  {
    var lines := NonBlankLines(data);
    var r := TailLines(data);
    var k := |lines| - |r|;
    assert 0 <= k && r == lines[k..];
    NonBlankLinesAreLines(data);
    forall i | 0 <= i < |r| ensures NonBlank(r[i]) && OneLine(r[i]) {
      assert r[i] == lines[k..][i] == lines[k + i];
    }
  }

  /** A log of at most a hundred lines, none of them blank, is shown as it is. */
  lemma ShortLogShownWhole(data: string)
    requires forall i :: 0 <= i < |Split(data, Is('\n'))| ==> NonBlank(Split(data, Is('\n'))[i])
    requires |Split(data, Is('\n'))| <= 100
    ensures Join(TailLines(data), "\n") == data
  {
    Seqs.FilterAll(Split(data, Is('\n')), NonBlank);
    JoinSplit(data, '\n');
  }
}

=== FILE: ChatMessages.dfy ===
/**
 * The message list of the chat panel: sending a message appends it together
 * with a loading placeholder, which is later filled in or withdrawn by its
 * identifier.
 */
module ChatMessages {
  import opened Wrappers
  import opened JsText
  import Seqs

  /** `"user"`, `"assistant"` (answers to searches) and `"ai"` (answers of the assistant). */
  datatype Role = User | Assistant | Ai

  datatype Message = Message(id: int, role: Role, content: string, loading: bool)

  /** What is still owed after a send: the search or the chat reply for the placeholder `id`. */
  datatype Pending = Search(id: int, query: string) | Chat(id: int)

  const Thinking: string := "正在思考中..."

  // ---------------------------------------------------------------------------
  // Search requests
  // ---------------------------------------------------------------------------

  /** A message asks for a web search when it mentions 搜索 or 查询 anywhere, or starts with `search:`. */
  predicate IsSearchRequest(text: string)
  {
    Contains(text, "搜索") || Contains(text, "查询") || StartsWith(text, "search:")
  }

  /** A search request is one where 搜索 or 查询 occurs at some index, or `search:` at index 0. */
  lemma SearchRequestIff(text: string)
    ensures IsSearchRequest(text) <==>
      || (exists i :: OccursAt(text, "搜索", i) || OccursAt(text, "查询", i))
      || OccursAt(text, "search:", 0)
  {
    ContainsIff(text, "搜索");
    ContainsIff(text, "查询");
  }

  /**
   * `replace(/搜索|查询|search:/g, '')`: one left-to-right pass that deletes
   * every occurrence of the three keywords.
   */
  function StripKeywords(s: string): (r: string)
    ensures |r| <= |s|
    ensures Seqs.IsSubsequence(r, s)
    decreases |s|
  {
    if s == [] then []
    else if StartsWith(s, "搜索") then
      var r := StripKeywords(s[2..]);
      SubsequenceOfSuffix(r, s, 2);
      r
    else if StartsWith(s, "查询") then
      var r := StripKeywords(s[2..]);
      SubsequenceOfSuffix(r, s, 2);
      r
    else if StartsWith(s, "search:") then
      var r := StripKeywords(s[7..]);
      SubsequenceOfSuffix(r, s, 7);
      r
    else
      var r := StripKeywords(s[1..]);
      assert ([s[0]] + r)[1..] == r;
      [s[0]] + r
  }

  /** A subsequence of a suffix of `s` is a subsequence of `s`. */
  lemma {:induction false} SubsequenceOfSuffix(r: string, s: string, k: nat)
    requires k <= |s| && Seqs.IsSubsequence(r, s[k..])
    ensures Seqs.IsSubsequence(r, s)
    decreases k
  {
    if k > 0 {
      assert s[1..][k - 1..] == s[k..];
      SubsequenceOfSuffix(r, s[1..], k - 1);
      Seqs.SubsequenceOfTail(r, s);
    }
  }

  /** The query sent to the search service: the message without its keywords, trimmed. */
  function SearchQuery(text: string): (q: string)
    ensures |q| <= |text|
    ensures q == [] || (!IsSpace(q[0]) && !IsSpace(q[|q| - 1]))
  {
    Trim(StripKeywords(text))
  }

  /** A text with none of the keywords passes through the deletion unchanged. */
  lemma {:induction false} StripKeywordsPlain(s: string)
    requires !Contains(s, "搜索") && !Contains(s, "查询") && !Contains(s, "search:")
    ensures StripKeywords(s) == s
    decreases |s|
  {
    if s != [] {
      assert !StartsWith(s, "搜索") by { if StartsWith(s, "搜索") { ContainsInfix(s, "搜索", 0); } }
      assert !StartsWith(s, "查询") by { if StartsWith(s, "查询") { ContainsInfix(s, "查询", 0); } }
      assert !StartsWith(s, "search:") by { if StartsWith(s, "search:") { ContainsInfix(s, "search:", 0); } }
      assert !Contains(s[1..], "搜索") by { if Contains(s[1..], "搜索") { ContainsOfTail(s, "搜索"); } }
      assert !Contains(s[1..], "查询") by { if Contains(s[1..], "查询") { ContainsOfTail(s, "查询"); } }
      assert !Contains(s[1..], "search:") by { if Contains(s[1..], "search:") { ContainsOfTail(s, "search:"); } }
      StripKeywordsPlain(s[1..]);
      assert s == [s[0]] + s[1..];
    }
  }

  /** A leading keyword is deleted from the query. */
  lemma LeadingKeywordDropped(q: string)
    ensures SearchQuery("search:" + q) == SearchQuery(q)
    ensures SearchQuery("搜索" + q) == SearchQuery(q)
  {
    assert StartsWith("search:" + q, "search:");
    assert ("search:" + q)[7..] == q;
    assert StartsWith("搜索" + q, "搜索");
    assert ("搜索" + q)[2..] == q;
  }

  /** One of the three keywords the search query loses. */
  predicate IsKeyword(k: string)
  {
    k == "搜索" || k == "查询" || k == "search:"
  }

  /** A keyword starts at the front of `s`. */
  predicate KeywordAt(s: string)
  {
    StartsWith(s, "搜索") || StartsWith(s, "查询") || StartsWith(s, "search:")
  }

  /** A character at which no keyword starts is kept. */
  lemma StripKeywordsCons(s: string)
    requires s != [] && !KeywordAt(s)
    ensures StripKeywords(s) == [s[0]] + StripKeywords(s[1..])
  {
  }

  /** A keyword at the front is deleted as a whole. */
  lemma KeywordDropped(k: string, rest: string)
    requires IsKeyword(k)
    ensures StripKeywords(k + rest) == StripKeywords(rest)
  {
    var s := k + rest;
    assert s[..|k|] == k && s[|k|..] == rest;
    if k == "查询" {
      assert !StartsWith(s, "搜索") by { assert s[0] != "搜索"[0]; }
    } else if k == "search:" {
      assert !StartsWith(s, "搜索") && !StartsWith(s, "查询") by { assert s[0] == 's'; }
    }
  }

  /** Text at none of whose positions a keyword starts is kept in front of whatever follows. */
  lemma {:induction false} StripKeywordsPlainPrefix(p: string, rest: string)
    requires forall i :: 0 <= i < |p| ==> !KeywordAt((p + rest)[i..])
    ensures StripKeywords(p + rest) == p + StripKeywords(rest)
    decreases |p|
  {
    if p == [] {
      assert p + rest == rest;
    } else {
      Seqs.ConsSplit(p, rest);
      assert (p + rest)[0..] == p + rest;
      StripKeywordsCons(p + rest);
      assert forall i :: 0 <= i < |p| - 1 ==> (p[1..] + rest)[i..] == (p + rest)[i + 1..];
      StripKeywordsPlainPrefix(p[1..], rest);
      Seqs.ConsSplit(p, StripKeywords(rest));
    }
  }

  /**
   * The first keyword of the message is deleted wherever it stands: the text
   * before it is kept, and the deletion goes on after it.
   */
  lemma KeywordAfterPlain(p: string, k: string, rest: string)
    requires IsKeyword(k)
    requires forall i :: 0 <= i < |p| ==> !KeywordAt((p + k + rest)[i..])
    ensures StripKeywords(p + k + rest) == p + StripKeywords(rest)
    ensures SearchQuery(p + k + rest) == Trim(p + StripKeywords(rest))
  {
    assert p + k + rest == p + (k + rest);
    StripKeywordsPlainPrefix(p, k + rest);
    KeywordDropped(k, rest);
  }

  /** A keyword after other text is deleted: `a搜索` asks for `a`. */
  lemma TrailingKeywordDropped()
    ensures SearchQuery("a搜索") == "a"
  {
    var p, rest: string := "a", "";
    var s := p + "搜索" + rest;
    assert s == "a搜索";
    assert !KeywordAt(s[0..]) by { assert s[0..][0] == 'a'; }
    KeywordAfterPlain(p, "搜索", rest);
    assert p + StripKeywords(rest) == p;
    TrimKeepsTrimmed(p);
  }

  /** One pass can join the halves around a deleted keyword into a new one: 搜搜索索 leaves 搜索. */
  lemma SinglePassCanLeaveKeyword()
    ensures StripKeywords("搜搜索索") == "搜索"
    ensures IsSearchRequest(SearchQuery("搜搜索索"))
  {
    var s := "搜搜索索";
    assert !StartsWith(s, "搜索") by { assert s[1] != "搜索"[1]; }
    assert !StartsWith(s, "查询") by { assert s[0] != "查询"[0]; }
    assert !StartsWith(s, "search:") by { assert |s| < |"search:"|; }
    assert s[1..] == "搜索" + "索";
    assert StartsWith(s[1..], "搜索");
    var t: string := "索";
    assert s[1..][2..] == t;
    assert !StartsWith(t, "搜索") && !StartsWith(t, "查询") && !StartsWith(t, "search:") by { assert |t| == 1; }
    assert StripKeywords(t) == [t[0]] + StripKeywords(t[1..]);
    assert StripKeywords(s) == [s[0]] + StripKeywords(t);
    TrimKeepsTrimmed("搜索");
    ContainsInfix("搜索", "搜索", 0);
  }

  // ---------------------------------------------------------------------------
  // Updating messages by identifier
  // ---------------------------------------------------------------------------

  /** `msg.id === id ? { ...msg, content, loading: false } : msg`. */
  function Fill(id: int, content: string): (f: Message -> Message)
    ensures forall m :: f(m) == if m.id == id then m.(content := content, loading := false) else m
  {
    (m: Message) => if m.id == id then m.(content := content, loading := false) else m
  }

  /** The list after the reply for `id` arrived: that message gets the content and stops loading, nothing else changes. */
  function Filled(messages: seq<Message>, id: int, content: string): (r: seq<Message>)
    ensures |r| == |messages|
    ensures forall i :: 0 <= i < |r| ==> r[i].id == messages[i].id && r[i].role == messages[i].role
    ensures forall i :: 0 <= i < |r| && messages[i].id == id ==> r[i].content == content && !r[i].loading
    ensures forall i :: 0 <= i < |r| && messages[i].id != id ==> r[i] == messages[i]
  {
    Seqs.Map(messages, Fill(id, content))
  }

  /** Filling in a reply a second time changes nothing. */
  lemma FilledIdempotent(messages: seq<Message>, id: int, content: string)
    ensures Filled(Filled(messages, id, content), id, content) == Filled(messages, id, content)
  {
  }

  function NotId(id: int): (p: Message -> bool)
    ensures forall m :: p(m) <==> m.id != id
  {
    (m: Message) => m.id != id
  }

  /** `prev.filter(msg => msg.id !== id)`: the messages with other identifiers, in order. */
  function Withdrawn(messages: seq<Message>, id: int): (r: seq<Message>)
    ensures forall i :: 0 <= i < |r| ==> r[i].id != id
    ensures forall m :: m in r <==> m in messages && m.id != id
    ensures Seqs.IsSubsequence(r, messages)
    ensures forall m :: multiset(r)[m] == if m.id != id then multiset(messages)[m] else 0
  {
    forall m ensures m in Seqs.Filter(messages, NotId(id)) <==> m in messages && m.id != id {
      Seqs.FilterMembership(messages, NotId(id), m);
    }
    forall m ensures multiset(Seqs.Filter(messages, NotId(id)))[m] == if m.id != id then multiset(messages)[m] else 0 {
      Seqs.FilterMultiplicity(messages, NotId(id), m);
    }
    Seqs.FilterIsSubsequence(messages, NotId(id));
    Seqs.Filter(messages, NotId(id))
  }

  /** The message of the user. */
  function UserMessage(text: string, clock: int): Message
  {
    Message(clock, User, text, false)
  }

  /** The placeholder shown while the reply is on its way. */
  function Placeholder(search: bool, clock: int): Message
  {
    if search then Message(clock + 1, Assistant, "", true) else Message(clock + 1, Ai, Thinking, true)
  }

  /**
   * The two messages a send appends: the user's text as typed, stamped with
   * the clock and never loading; then a loading placeholder one past the
   * clock reading that is never a user message, empty for a search and
   * showing the thinking notice for a chat. The two always differ.
   */
  lemma SentMessages(text: string, search: bool, userClock: int, placeholderClock: int)
    ensures var m := UserMessage(text, userClock);
      m.role == User && m.content == text && m.id == userClock && !m.loading
    ensures var p := Placeholder(search, placeholderClock);
      && p.loading && p.id == placeholderClock + 1 && p.role != User
      && p.content == (if search then "" else Thinking)
    ensures UserMessage(text, userClock) != Placeholder(search, placeholderClock)
  {
  }

  /** No message of the list carries the identifier. */
  predicate Fresh(messages: seq<Message>, id: int)
  {
    forall i :: 0 <= i < |messages| ==> messages[i].id != id
  }

  /**
   * A failed chat withdraws the placeholder and leaves the user's message,
   * provided the placeholder's identifier was not already in use.
   */
  lemma WithdrawAfterSend(messages: seq<Message>, user: Message, placeholder: Message)
    requires Fresh(messages, placeholder.id) && user.id != placeholder.id
    ensures Withdrawn(messages + [user, placeholder], placeholder.id) == messages + [user]
  {
    var p := NotId(placeholder.id);
    Seqs.FilterAppend(messages, [user, placeholder], p);
    Seqs.FilterAll(messages, p);
    assert Seqs.Filter([user, placeholder], p) == [user] by {
      assert [user, placeholder][1..] == [placeholder];
    }
  }

  /** A reply fills exactly the placeholder that the send appended, provided its identifier was not already in use. */
  lemma FillAfterSend(messages: seq<Message>, user: Message, placeholder: Message, content: string)
    requires Fresh(messages, placeholder.id) && user.id != placeholder.id
    ensures Filled(messages + [user, placeholder], placeholder.id, content)
      == messages + [user, placeholder.(content := content, loading := false)]
  {
  }

  // ---------------------------------------------------------------------------
  // The conversation
  // ---------------------------------------------------------------------------

  /** The `messages` state of the application. */
  class Conversation {
    var messages: seq<Message>

    constructor ()
      ensures messages == []
    {
      messages := [];
    }

    /**
     * `handleSendMessage` up to its first `await`: a missing or blank text is
     * ignored; otherwise the user's message and a placeholder are appended,
     * and what remains to be done is a search for the extracted query or a
     * chat reply. The two identifiers come from two readings of the clock.
     */
    method Send(text: Option<string>, userClock: int, placeholderClock: int) returns (pending: Option<Pending>)
      modifies this
      ensures text.None? || Trim(text.value) == [] ==> pending == None && messages == old(messages)
      ensures text.Some? && Trim(text.value) != [] ==>
        var search := IsSearchRequest(text.value);
        && messages == old(messages) + [UserMessage(text.value, userClock), Placeholder(search, placeholderClock)]
        && pending == Some(if search then Search(placeholderClock + 1, SearchQuery(text.value))
                           else Chat(placeholderClock + 1))
    {
      if text.None? || Trim(text.value) == [] {
        return None;
      }
      var t := text.value;
      var before := messages;
      var user := UserMessage(t, userClock);
      messages := messages + [user];
      var search := IsSearchRequest(t);
      var placeholder := Placeholder(search, placeholderClock);
      messages := messages + [placeholder];
      Seqs.AppendAssoc(before, [user], [placeholder]);
      assert [user] + [placeholder] == [user, placeholder];
      if search {
        pending := Some(Search(placeholderClock + 1, SearchQuery(t)));
      } else {
        pending := Some(Chat(placeholderClock + 1));
      }
    }

    /** A reply (or, for a search, an error text) arrived for the placeholder `id`. */
    method Resolve(id: int, content: string)
      modifies this
      ensures messages == Filled(old(messages), id, content)
    {
      messages := Filled(messages, id, content);
    }

    /** The chat reply failed: the placeholder `id` is removed. */
    method Withdraw(id: int)
      modifies this
      ensures messages == Withdrawn(old(messages), id)
    {
      messages := Withdrawn(messages, id);
    }
  }
}

=== FILE: ChatScroll.dfy ===
/**
 * Scroll anchoring of the chat panel: after every render the message list
 * either follows the bottom (when the reader was there) or keeps the reader's
 * distance from the bottom when new content arrived.
 */
module ChatScroll {

  /** The tolerance, in pixels, within which the view counts as being at the bottom. */
  const BottomSlack: int := 20

  /** `isAtBottom`: the visible part reaches to within the tolerance of the end of the content. */
  predicate IsAtBottom(scrollTop: int, scrollHeight: int, clientHeight: int)
  {
    scrollTop + clientHeight >= scrollHeight - BottomSlack
  }

  /** The largest scroll offset a container allows: the overflow, or 0 when the content fits. */
  function MaxScrollTop(scrollHeight: int, clientHeight: int): (m: int)
    ensures m >= 0 && m >= scrollHeight - clientHeight
    ensures m == 0 || m == scrollHeight - clientHeight
  {
    if scrollHeight > clientHeight then scrollHeight - clientHeight else 0
  }

  /** The offset a container ends up with when a script assigns `x` to `scrollTop`. */
  function ClampScroll(x: int, scrollHeight: int, clientHeight: int): (r: int)
    ensures 0 <= r <= MaxScrollTop(scrollHeight, clientHeight)
    ensures 0 <= x <= MaxScrollTop(scrollHeight, clientHeight) ==> r == x
    ensures x < 0 ==> r == 0
    ensures x > MaxScrollTop(scrollHeight, clientHeight) ==> r == MaxScrollTop(scrollHeight, clientHeight)
  {
    var m := MaxScrollTop(scrollHeight, clientHeight);
    if x < 0 then 0 else if x > m then m else x
  }

  /** Scrolling as far down as the container allows always counts as being at the bottom. */
  lemma MaxScrollIsBottom(scrollHeight: int, clientHeight: int)
    requires clientHeight >= 0
    ensures IsAtBottom(MaxScrollTop(scrollHeight, clientHeight), scrollHeight, clientHeight)
    ensures IsAtBottom(ClampScroll(scrollHeight - clientHeight, scrollHeight, clientHeight), scrollHeight, clientHeight)
  {
  }

  /**
   * Shifting the offset by the growth of the content keeps the reader's
   * distance from the bottom, as long as the container does not clamp it.
   */
  lemma ShiftKeepsDistanceFromBottom(prevScrollHeight: int, prevScrollTop: int, scrollHeight: int, clientHeight: int)
    requires 0 <= prevScrollTop + (scrollHeight - prevScrollHeight) <= MaxScrollTop(scrollHeight, clientHeight)
    ensures var top := ClampScroll(prevScrollTop + (scrollHeight - prevScrollHeight), scrollHeight, clientHeight);
      scrollHeight - top == prevScrollHeight - prevScrollTop
  {
  }

  /** The scrolling container of the message list, as far as anchoring reads and writes it. */
  class Viewport {
    var scrollHeight: int
    var clientHeight: int
    var scrollTop: int

    ghost predicate Valid()
      reads this
    {
      0 <= clientHeight && 0 <= scrollTop <= MaxScrollTop(scrollHeight, clientHeight)
    }

    constructor (scrollHeight: int, clientHeight: int, scrollTop: int)
      requires 0 <= clientHeight && 0 <= scrollTop <= MaxScrollTop(scrollHeight, clientHeight)
      ensures Valid()
      ensures this.scrollHeight == scrollHeight && this.clientHeight == clientHeight && this.scrollTop == scrollTop
    {
      this.scrollHeight := scrollHeight;
      this.clientHeight := clientHeight;
      this.scrollTop := scrollTop;
    }

    /** `container.scrollTop = x`: the browser clamps the offset to the scrollable range. */
    method ScrollTo(x: int)
      requires Valid()
      modifies this
      ensures Valid()
      ensures scrollTop == ClampScroll(x, scrollHeight, clientHeight)
      ensures scrollHeight == old(scrollHeight) && clientHeight == old(clientHeight)
    {
      scrollTop := ClampScroll(x, scrollHeight, clientHeight);
    }
  }

  /** `scrollStateRef`: what the panel remembers about the container between renders. */
  class ScrollAnchor {
    var prevScrollHeight: int
    var prevScrollTop: int
    var prevClientHeight: int
    var wasAtBottom: bool

    /** The initial record: nothing measured yet, and the reader is taken to be at the bottom. */
    constructor ()
      ensures prevScrollHeight == 0 && prevScrollTop == 0 && prevClientHeight == 0 && wasAtBottom
    {
      prevScrollHeight := 0;
      prevScrollTop := 0;
      prevClientHeight := 0;
      wasAtBottom := true;
    }

    /** The mount effect: with messages present the record starts from the container, at the bottom. */
    method Mount(view: Viewport, messageCount: nat)
      modifies this
      ensures messageCount == 0 ==> unchanged(this)
      ensures messageCount > 0 ==>
        && prevScrollHeight == view.scrollHeight && prevScrollTop == view.scrollTop
        && prevClientHeight == view.clientHeight && wasAtBottom
    {
      if messageCount > 0 {
        prevScrollHeight := view.scrollHeight;
        prevScrollTop := view.scrollTop;
        prevClientHeight := view.clientHeight;
        wasAtBottom := true;
      }
    }

    /** `handleScroll`: a scroll by the reader updates the offset and whether the view is at the bottom. */
    method OnScroll(view: Viewport)
      modifies this
      ensures wasAtBottom == IsAtBottom(view.scrollTop, view.scrollHeight, view.clientHeight)
      ensures prevScrollTop == view.scrollTop
      ensures prevScrollHeight == old(prevScrollHeight) && prevClientHeight == old(prevClientHeight)
    {
      wasAtBottom := IsAtBottom(view.scrollTop, view.scrollHeight, view.clientHeight);
      prevScrollTop := view.scrollTop;
    }

    /**
     * The layout effect after the messages change: a reader at the bottom is
     * taken to the new bottom; otherwise growth of the content shifts the
     * offset by the growth; otherwise the offset stays. The record is then
     * refreshed from the container.
     */
    method AfterRender(view: Viewport, messageCount: nat)
      requires view.Valid()
      modifies this, view
      ensures view.Valid()
      ensures view.scrollHeight == old(view.scrollHeight) && view.clientHeight == old(view.clientHeight)
      ensures messageCount == 0 ==> unchanged(this) && unchanged(view)
      ensures messageCount > 0 && old(wasAtBottom) ==>
        view.scrollTop == MaxScrollTop(view.scrollHeight, view.clientHeight)
      ensures messageCount > 0 && !old(wasAtBottom) && view.scrollHeight > old(prevScrollHeight) ==>
        view.scrollTop == ClampScroll(old(prevScrollTop) + (view.scrollHeight - old(prevScrollHeight)),
                                      view.scrollHeight, view.clientHeight)
      ensures messageCount > 0 && !old(wasAtBottom) && view.scrollHeight <= old(prevScrollHeight) ==>
        view.scrollTop == old(view.scrollTop)
      ensures messageCount > 0 ==>
        && prevScrollHeight == view.scrollHeight && prevScrollTop == view.scrollTop
        && prevClientHeight == view.clientHeight
        && wasAtBottom == IsAtBottom(view.scrollTop, view.scrollHeight, view.clientHeight)
      ensures messageCount > 0 && old(wasAtBottom) ==> wasAtBottom
    {
      if messageCount == 0 {
        return;
      }
      var scrollHeight, clientHeight := view.scrollHeight, view.clientHeight;
      var heightDiff := scrollHeight - prevScrollHeight;
      if wasAtBottom {
        view.ScrollTo(scrollHeight - clientHeight);
        MaxScrollIsBottom(scrollHeight, clientHeight);
      } else if heightDiff > 0 {
        view.ScrollTo(prevScrollTop + heightDiff);
      }
      prevScrollHeight := view.scrollHeight;
      prevScrollTop := view.scrollTop;
      prevClientHeight := view.clientHeight;
      wasAtBottom := IsAtBottom(view.scrollTop, view.scrollHeight, view.clientHeight);
    }
  }
}

=== FILE: JsText.dfy ===
/**
 * The JavaScript string operations the application relies on, stated over
 * sequences of UTF-16 code units (`string`, one `char` per code unit):
 * `trim`, `indexOf`/`includes`, `startsWith`/`endsWith`, `replace` with a
 * string pattern (first occurrence), global replacement of a literal pattern,
 * counting the matches of a literal pattern, `split` and `join`.
 */
module JsText {
  import opened Wrappers
  import Seqs

  /** ECMAScript LineTerminator: LF, CR, LINE SEPARATOR and PARAGRAPH SEPARATOR. */
  predicate IsLineTerminator(c: char)
  {
    c == '\n' || c == '\r' || c == '\U{2028}' || c == '\U{2029}'
  }

  /**
   * The characters matched by the regular-expression class `\s` and removed by
   * `String.prototype.trim`: ECMAScript WhiteSpace (tab, vertical tab, form feed,
   * space, no-break space, byte order mark and the Unicode space separators)
   * together with the line terminators.
   */
  predicate IsSpace(c: char)
  {
    || c == '\t' || c == '\U{000B}' || c == '\U{000C}' || c == ' '
    || c == '\U{00A0}' || c == '\U{FEFF}' || c == '\U{1680}'
    || ('\U{2000}' <= c <= '\U{200A}')
    || c == '\U{202F}' || c == '\U{205F}' || c == '\U{3000}'
    || IsLineTerminator(c)
  }

  /** The separator test "is the character `c`", as used by `split(c)`. */
  function Is(c: char): (p: char -> bool)
    ensures forall x :: p(x) <==> x == c
  {
    x => x == c
  }

  function StartsWith(s: string, prefix: string): bool
  {
    prefix <= s
  }

  function EndsWith(s: string, suffix: string): bool
  {
    |suffix| <= |s| && s[|s| - |suffix|..] == suffix
  }

  // ---------------------------------------------------------------- trim

  /** Leading whitespace removed. */
  function TrimStart(s: string): (r: string)
    ensures |r| <= |s| && r == s[|s| - |r|..]
    ensures forall i :: 0 <= i < |s| - |r| ==> IsSpace(s[i])
    ensures r == [] || !IsSpace(r[0])
  {
    if s != [] && IsSpace(s[0]) then
      var r := TrimStart(s[1..]);
      DropLeadingSpace(s, r);
      r
    else s
  }

  /** One more leading whitespace character in front of a trimmed suffix. */
  lemma DropLeadingSpace(s: string, r: string)
    requires s != [] && IsSpace(s[0])
    requires |r| <= |s| - 1 && r == s[1..][|s| - 1 - |r|..]
    requires forall i :: 0 <= i < |s| - 1 - |r| ==> IsSpace(s[1..][i])
    ensures r == s[|s| - |r|..]
    ensures forall i :: 0 <= i < |s| - |r| ==> IsSpace(s[i])
  {
    forall i | 0 <= i < |s| - |r| ensures IsSpace(s[i]) {
      if i > 0 { assert s[i] == s[1..][i - 1]; }
    }
  }

  /** Trailing whitespace removed. */
  function TrimEnd(s: string): (r: string)
    ensures |r| <= |s| && r == s[..|r|]
    ensures forall i :: |r| <= i < |s| ==> IsSpace(s[i])
    ensures r == [] || !IsSpace(r[|r| - 1])
  {
    if s != [] && IsSpace(s[|s| - 1]) then TrimEnd(s[..|s| - 1]) else s
  }

  /** `s.trim()`: the longest infix of `s` that neither starts nor ends with whitespace. */
  function Trim(s: string): (r: string)
    ensures |r| <= |s|
    ensures r == [] || (!IsSpace(r[0]) && !IsSpace(r[|r| - 1]))
    ensures r == [] <==> forall i :: 0 <= i < |s| ==> IsSpace(s[i])
  {
    var a := TrimStart(s);
    assert a != [] ==> !IsSpace(a[0]);
    TrimEnd(a)
  }

  /** Text that has no whitespace at either end is left as it is by `trim`. */
  lemma TrimKeepsTrimmed(s: string)
    requires s == [] || (!IsSpace(s[0]) && !IsSpace(s[|s| - 1]))
    ensures Trim(s) == s
  {
    assert TrimStart(s) == s;
    assert TrimEnd(s) == s;
  }

  /** `trim` is idempotent. */
  lemma TrimIdempotent(s: string)
    ensures Trim(Trim(s)) == Trim(s)
  {
    TrimKeepsTrimmed(Trim(s));
  }

  // ------------------------------------------------- searching for a pattern

  /** `pat` occurs in `s` starting at index `i`. */
  predicate OccursAt(s: string, pat: string, i: int)
  {
    0 <= i && i + |pat| <= |s| && s[i..i + |pat|] == pat
  }

  lemma OccursAtTail(s: string, pat: string, k: int)
    requires s != [] && 0 <= k
    ensures OccursAt(s[1..], pat, k) <==> OccursAt(s, pat, k + 1)
  {
    if 0 <= k && k + |pat| <= |s| - 1 {
      assert s[1..][k..k + |pat|] == s[k + 1..k + 1 + |pat|];
    }
  }

  /** `s.indexOf(pat)`: the first index where `pat` occurs, `None` for -1. */
  function IndexOf(s: string, pat: string): (r: Option<nat>)
    ensures r.Some? ==> OccursAt(s, pat, r.value)
    ensures r.Some? ==> forall j :: 0 <= j < r.value ==> !OccursAt(s, pat, j)
    ensures r.None? ==> forall j :: !OccursAt(s, pat, j)
    decreases |s|
  {
    if pat <= s then
      assert s[0..|pat|] == pat;
      Some(0)
    else if s == [] then
      None
    else
      var tail := IndexOf(s[1..], pat);
      assert !OccursAt(s, pat, 0);
      assert forall j :: 1 <= j ==> (OccursAt(s, pat, j) <==> OccursAt(s[1..], pat, j - 1)) by {
        forall j | 1 <= j
          ensures OccursAt(s, pat, j) <==> OccursAt(s[1..], pat, j - 1)
        {
          OccursAtTail(s, pat, j - 1);
        }
      }
      match tail
      case None => None
      case Some(k) => Some(k + 1)
  }

  /** The first occurrence is the one `indexOf` reports. */
  lemma IndexOfFirst(s: string, pat: string, i: nat)
    requires OccursAt(s, pat, i) && forall j :: 0 <= j < i ==> !OccursAt(s, pat, j)
    ensures IndexOf(s, pat) == Some(i)
  {
  }

  /** `s.includes(pat)`. */
  predicate Contains(s: string, pat: string)
  {
    IndexOf(s, pat).Some?
  }

  /** `includes` holds exactly when the pattern occurs at some index. */
  lemma ContainsIff(s: string, pat: string)
    ensures Contains(s, pat) <==> exists i :: OccursAt(s, pat, i)
  {
  }

  /** A text contains its own infixes. */
  lemma ContainsInfix(s: string, pat: string, i: int)
    requires OccursAt(s, pat, i)
    ensures Contains(s, pat)
  {
  }

  /** A pattern found in the tail is found in the whole text. */
  lemma ContainsOfTail(s: string, pat: string)
    requires s != [] && Contains(s[1..], pat)
    ensures Contains(s, pat)
  {
    var k := IndexOf(s[1..], pat).value;
    OccursAtTail(s, pat, k);
  }

  /** `s.replace(pat, rep)` with a string pattern: only the first occurrence is replaced. */
  function ReplaceFirst(s: string, pat: string, rep: string): (r: string)
    ensures !Contains(s, pat) ==> r == s
    ensures Contains(s, pat) ==> |r| == |s| - |pat| + |rep|
    ensures StartsWith(s, pat) ==> r == rep + s[|pat|..]
  {
    match IndexOf(s, pat)
    case None => s
    case Some(i) => s[..i] + rep + s[i + |pat|..]
  }

  /** Replacing at the first occurrence, once it is known where that is. */
  lemma ReplaceFirstAt(s: string, pat: string, rep: string, i: nat)
    requires IndexOf(s, pat) == Some(i)
    ensures i + |pat| <= |s| && ReplaceFirst(s, pat, rep) == s[..i] + rep + s[i + |pat|..]
  {
  }

  // ------------------------------------------- global matching of a literal

  /**
   * The number of matches of the global regular expression for the literal
   * `pat` (`s.match(/pat/g).length`, 0 where `match` gives `null`): matches are
   * taken left to right and do not overlap.
   */
  function CountOccurrences(s: string, pat: string): (n: nat)
    requires pat != []
    ensures n > 0 <==> Contains(s, pat)
    decreases |s|
  {
    if pat <= s then
      assert IndexOf(s, pat) == Some(0);
      1 + CountOccurrences(s[|pat|..], pat)
    else if s == [] then
      0
    else
      assert Contains(s, pat) <==> Contains(s[1..], pat) by {
        assert IndexOf(s, pat).Some? <==> IndexOf(s[1..], pat).Some?;
      }
      CountOccurrences(s[1..], pat)
  }

  /**
   * `s.replace(/pat/g, rep)` for a literal pattern: every match, found left to
   * right without overlap, is replaced by `rep` in a single pass.
   */
  function ReplaceAll(s: string, pat: string, rep: string): (r: string)
    requires pat != []
    ensures |r| == |s| + CountOccurrences(s, pat) * (|rep| - |pat|)
    decreases |s|
  {
    if pat <= s then
      var rest := ReplaceAll(s[|pat|..], pat, rep);
      OneMoreTimes(CountOccurrences(s[|pat|..], pat), |rep| - |pat|);
      rep + rest
    else if s == [] then
      []
    else
      [s[0]] + ReplaceAll(s[1..], pat, rep)
  }

  /**
   * The first occurrence is replaced, the text before it is kept, and the
   * replacement goes on after the matched pattern.
   */
  lemma ReplaceAllAt(s: string, pat: string, rep: string, i: nat)
    requires pat != [] && IndexOf(s, pat) == Some(i)
    ensures ReplaceAll(s, pat, rep) == s[..i] + rep + ReplaceAll(s[i + |pat|..], pat, rep)
  {
    ReplaceAllFirst(s, pat, rep, i);
  }

  lemma ReplaceAllFirst(s: string, pat: string, rep: string, i: nat)
    requires pat != [] && OccursAt(s, pat, i)
    requires forall j :: 0 <= j < i ==> !OccursAt(s, pat, j)
    ensures ReplaceAll(s, pat, rep) == s[..i] + rep + ReplaceAll(s[i + |pat|..], pat, rep)
  {
    OccurrenceSplits(s, pat, i);
    ReplaceAllSplit(s, s[..i], s[i..], s[i + |pat|..], pat, rep);
  }

  /** An occurrence at `i` cuts the text into what comes before it and what starts with it. */
  lemma OccurrenceSplits(s: string, pat: string, i: nat)
    requires OccursAt(s, pat, i)
    ensures s == s[..i] + s[i..] && pat <= s[i..] && s[i + |pat|..] == s[i..][|pat|..]
  {
    assert s[i..][..|pat|] == s[i..i + |pat|];
  }

  /** Text in which no match starts, then a match: the text is kept and the match replaced. */
  lemma ReplaceAllSplit(s: string, front: string, from: string, after: string, pat: string, rep: string)
    requires pat != [] && pat <= from && s == front + from && after == from[|pat|..]
    requires forall j :: 0 <= j < |front| ==> !OccursAt(s, pat, j)
    ensures ReplaceAll(s, pat, rep) == front + rep + ReplaceAll(after, pat, rep)
  {
    calc {
      ReplaceAll(s, pat, rep);
    == { ReplaceAllPlainPrefix(front, from, pat, rep); }
      front + ReplaceAll(from, pat, rep);
    == { ReplaceAllFront(from, pat, rep); }
      front + (rep + ReplaceAll(after, pat, rep));
    == { Seqs.AppendAssoc(front, rep, ReplaceAll(after, pat, rep)); }
      front + rep + ReplaceAll(after, pat, rep);
    }
  }

  /** A match at the front is replaced. */
  lemma ReplaceAllFront(s: string, pat: string, rep: string)
    requires pat != [] && pat <= s
    ensures ReplaceAll(s, pat, rep) == rep + ReplaceAll(s[|pat|..], pat, rep)
  {
  }

  /** Text in which no match starts is kept in front of the replaced rest. */
  lemma {:induction false} ReplaceAllPlainPrefix(p: string, rest: string, pat: string, rep: string)
    requires pat != []
    requires forall j :: 0 <= j < |p| ==> !OccursAt(p + rest, pat, j)
    ensures ReplaceAll(p + rest, pat, rep) == p + ReplaceAll(rest, pat, rep)
    decreases |p|
  {
    if p == [] {
      assert p + rest == rest;
    } else {
      var u := p[1..] + rest;
      Seqs.ConsSplit(p, rest);
      assert !OccursAt(p + rest, pat, 0);
      ReplaceAllCons(p[0], u, pat, rep);
      forall j | 0 <= j < |p| - 1
        ensures !OccursAt(u, pat, j)
      {
        OccursAtTail(p + rest, pat, j);
      }
      ReplaceAllPlainPrefix(p[1..], rest, pat, rep);
      Seqs.ConsSplit(p, ReplaceAll(rest, pat, rep));
    }
  }

  /** A character that starts no match is kept in front. */
  lemma ReplaceAllCons(c: char, u: string, pat: string, rep: string)
    requires pat != [] && !OccursAt([c] + u, pat, 0)
    ensures ReplaceAll([c] + u, pat, rep) == [c] + ReplaceAll(u, pat, rep)
  {
    var s := [c] + u;
    assert s[0] == c && s[1..] == u;
  }

  lemma OneMoreTimes(n: int, d: int)
    ensures (1 + n) * d == d + n * d
  {
  }

  /** A text without the pattern is left unchanged by a global replacement. */
  lemma {:induction false} ReplaceAllAbsent(s: string, pat: string, rep: string)
    requires pat != [] && !Contains(s, pat)
    ensures ReplaceAll(s, pat, rep) == s
    decreases |s|
  {
    if s != [] {
      assert !(pat <= s);
      ReplaceAllAbsent(s[1..], pat, rep);
    }
  }

  /** Replacing a pattern by itself gives back the original text. */
  lemma {:induction false} ReplaceAllSelf(s: string, pat: string)
    requires pat != []
    ensures ReplaceAll(s, pat, pat) == s
    decreases |s|
  {
    if pat <= s {
      ReplaceAllSelf(s[|pat|..], pat);
      assert s == pat + s[|pat|..];
    } else if s != [] {
      ReplaceAllSelf(s[1..], pat);
    }
  }

  // ------------------------------------------------------- split and join

  /**
   * `s.split(sep)`: the pieces between consecutive separator characters, so
   * there is always one piece more than there are separators, and no piece
   * contains a separator.
   */
  function Split(s: string, isSep: char -> bool): (r: seq<string>)
    ensures |r| >= 1
    ensures forall i, j :: 0 <= i < |r| && 0 <= j < |r[i]| ==> !isSep(r[i][j])
    decreases |s|
  {
    if s == [] then
      [[]]
    else
      var rest := Split(s[1..], isSep);
      if isSep(s[0]) then [[]] + rest
      else [[s[0]] + rest[0]] + rest[1..]
  }

  /** `parts.join(sep)`. */
  function Join(parts: seq<string>, sep: string): string
  {
    if |parts| == 0 then []
    else if |parts| == 1 then parts[0]
    else parts[0] + sep + Join(parts[1..], sep)
  }

  /** Joining the pieces of `s.split(c)` with `c` gives back `s`. */
  lemma {:induction false} JoinSplit(s: string, c: char)
    ensures Join(Split(s, Is(c)), [c]) == s
    decreases |s|
  {
    if s != [] {
      var rest := Split(s[1..], Is(c));
      JoinSplit(s[1..], c);
      if s[0] == c {
        assert Join(Split(s, Is(c)), [c]) == [] + [c] + Join(rest, [c]);
      } else if |rest| == 1 {
        assert Join(Split(s, Is(c)), [c]) == [s[0]] + rest[0];
      } else {
        assert Join(rest, [c]) == rest[0] + [c] + Join(rest[1..], [c]);
        assert Join(Split(s, Is(c)), [c]) == ([s[0]] + rest[0]) + [c] + Join(rest[1..], [c]);
      }
    }
  }

  /** A leading character that is not a separator starts the first piece. */
  lemma SplitKeepsFirst(s: string, isSep: char -> bool)
    requires s != [] && !isSep(s[0])
    ensures Split(s, isSep) == [[s[0]] + Split(s[1..], isSep)[0]] + Split(s[1..], isSep)[1..]
  {
  }

  lemma GlueFirst(p: string, pieces: seq<string>, rest: seq<string>)
    requires p != [] && |rest| >= 1 && pieces == [p[1..] + rest[0]] + rest[1..]
    ensures [[p[0]] + pieces[0]] + pieces[1..] == [p + rest[0]] + rest[1..]
  {
    assert [p[0]] + (p[1..] + rest[0]) == p + rest[0] by {
      assert p == [p[0]] + p[1..];
    }
  }

  /** Splitting text that starts with a separator-free prefix `p` glues `p` to the first piece. */
  lemma {:induction false} SplitAfterPrefix(p: string, t: string, isSep: char -> bool)
    requires forall j :: 0 <= j < |p| ==> !isSep(p[j])
    ensures Split(p + t, isSep) == [p + Split(t, isSep)[0]] + Split(t, isSep)[1..]
    decreases |p|
  {
    if p != [] {
      SplitAfterPrefix(p[1..], t, isSep);
      assert (p + t)[0] == p[0] && (p + t)[1..] == p[1..] + t;
      SplitKeepsFirst(p + t, isSep);
      GlueFirst(p, Split(p[1..] + t, isSep), Split(t, isSep));
    } else {
      assert p + t == t;
      assert p + Split(t, isSep)[0] == Split(t, isSep)[0];
      assert Split(t, isSep) == [Split(t, isSep)[0]] + Split(t, isSep)[1..];
    }
  }

  /** Splitting the join of separator-free pieces by the separator gives back the pieces. */
  lemma {:induction false} SplitJoin(parts: seq<string>, c: char)
    requires |parts| >= 1
    requires forall i, j :: 0 <= i < |parts| && 0 <= j < |parts[i]| ==> parts[i][j] != c
    ensures Split(Join(parts, [c]), Is(c)) == parts
  {
    var p := parts[0];
    if |parts| == 1 {
      SplitAfterPrefix(p, [], Is(c));
      assert p + [] == p;
    } else {
      var tail := Join(parts[1..], [c]);
      SplitJoin(parts[1..], c);
      assert Split([c] + tail, Is(c)) == [[]] + parts[1..] by {
        assert ([c] + tail)[1..] == tail;
      }
      SplitAfterPrefix(p, [c] + tail, Is(c));
      assert p + [c] + tail == p + ([c] + tail);
      assert p + [] == p;
    }
  }
}

=== FILE: MemoriesApi.dfy ===
/**
 * The serverless memories endpoint: an in-memory table of memory records
 * behind one handler that dispatches on the HTTP method.
 */
module MemoriesApi {
  import opened Wrappers
  import Seqs

  /** A memory record: a JSON object whose properties are all strings. */
  type Record = map<string, string>

  /** `record[key]`, with `None` for `undefined`. */
  function Lookup(record: Record, key: string): (r: Option<string>)
    ensures r.Some? <==> key in record
    ensures r.Some? ==> r.value == record[key]
  {
    if key in record then Some(record[key]) else None
  }

  /** The two clock readings and the ISO timestamp one request observes. */
  datatype Clock = Clock(idMillis: nat, fileMillis: nat, iso: string)

  datatype Request = Request(verb: string, query: map<string, string>, body: Record)

  datatype Payload =
    | Empty
    | Memories(list: seq<Record>)
    | Memory(record: Record)
    | Updated(data: Record)
    | Removed
    | Refused(error: string)

  datatype Response = Response(status: int, payload: Payload)

  const NotFound: string := "记忆不存在"
  const NotAllowed: string := "方法不允许"

  // ---------------------------------------------------------------------------
  // Clock readings as text
  // ---------------------------------------------------------------------------

  function DigitChar(d: nat): (c: char)
    requires d < 10
    ensures IsDigit(c)
  {
    "0123456789"[d]
  }

  function DigitValue(c: char): (d: nat)
    requires IsDigit(c)
    ensures d < 10 && DigitChar(d) == c
  {
    (c as int - '0' as int) as nat
  }

  predicate IsDigit(c: char)
  {
    '0' <= c <= '9'
  }

  /** `n.toString()` for a non-negative integer: its decimal digits, without leading zeros. */
  function DecimalString(n: nat): (r: string)
    ensures r != []
    ensures forall i :: 0 <= i < |r| ==> IsDigit(r[i])
    ensures r[0] == '0' <==> n == 0
    ensures r[0] == '0' ==> |r| == 1
  {
    if n < 10 then [DigitChar(n)] else DecimalString(n / 10) + [DigitChar(n % 10)]
  }

  /** The value of a string of decimal digits, read most significant first. */
  function ParseDecimal(s: string): nat
    requires forall i :: 0 <= i < |s| ==> IsDigit(s[i])
  {
    if s == [] then 0 else ParseDecimal(s[..|s| - 1]) * 10 + DigitValue(s[|s| - 1])
  }

  /** Reading back the decimal text of a number gives the number. */
  lemma {:induction false} ParseDecimalString(n: nat)
    ensures ParseDecimal(DecimalString(n)) == n
  {
    var r := DecimalString(n);
    if n >= 10 {
      ParseDecimalString(n / 10);
      assert r[..|r| - 1] == DecimalString(n / 10);
    }
    assert DigitValue(DigitChar(n % 10)) == n % 10;
  }

  /** Different clock readings give different texts. */
  lemma DecimalStringInjective(a: nat, b: nat)
    ensures DecimalString(a) == DecimalString(b) ==> a == b
  {
    if DecimalString(a) == DecimalString(b) {
      ParseDecimalString(a);
      ParseDecimalString(b);
    }
  }

  /** The file name a created memory gets: `memory-<millis>.json`. */
  function NewFilename(millis: nat): (r: string)
    ensures |r| > 12 && r[..7] == "memory-" && r[|r| - 5..] == ".json"
    ensures r[7..|r| - 5] == DecimalString(millis)
  {
    "memory-" + DecimalString(millis) + ".json"
  }

  /** Memories created at different milliseconds get different file names. */
  lemma NewFilenameInjective(a: nat, b: nat)
    ensures NewFilename(a) == NewFilename(b) <==> a == b
  {
    if NewFilename(a) == NewFilename(b) {
      assert DecimalString(a) == NewFilename(a)[7..|NewFilename(a)| - 5];
      DecimalStringInjective(a, b);
    }
  }

  // ---------------------------------------------------------------------------
  // Records
  // ---------------------------------------------------------------------------

  /**
   * `{ id, ...body, timestamp, filename }`: later properties override earlier
   * ones, so the body may replace the generated id but never the timestamp or
   * the file name.
   */
  function Created(body: Record, clock: Clock): (r: Record)
    ensures r.Keys == body.Keys + {"id", "timestamp", "filename"}
    ensures r["timestamp"] == clock.iso && r["filename"] == NewFilename(clock.fileMillis)
    ensures r["id"] == if "id" in body then body["id"] else DecimalString(clock.idMillis)
    ensures forall k :: k in body && k != "timestamp" && k != "filename" ==> r[k] == body[k]
  {
    map["id" := DecimalString(clock.idMillis)] + body
      + map["timestamp" := clock.iso, "filename" := NewFilename(clock.fileMillis)]
  }

  /** `{ ...old, ...body, timestamp }`: the body overrides the stored properties, the timestamp overrides both. */
  function Merged(stored: Record, body: Record, iso: string): (r: Record)
    ensures r.Keys == stored.Keys + body.Keys + {"timestamp"}
    ensures r["timestamp"] == iso
    ensures forall k :: k in body && k != "timestamp" ==> r[k] == body[k]
    ensures forall k :: k in stored && k !in body && k != "timestamp" ==> r[k] == stored[k]
  {
    stored + body + map["timestamp" := iso]
  }

  /** An update whose body does not name a file keeps the record under its file name. */
  lemma MergedKeepsFilename(stored: Record, body: Record, iso: string)
    requires "filename" !in body
    ensures Lookup(Merged(stored, body, iso), "filename") == Lookup(stored, "filename")
  {
  }

  /** `m => m.filename === filename`, where either side may be `undefined`. */
  function HasFilename(filename: Option<string>): (p: Record -> bool)
    ensures forall m :: p(m) <==> Lookup(m, "filename") == filename
  {
    m => Lookup(m, "filename") == filename
  }

  /** `mockMemories.findIndex(m => m.filename === filename)`. */
  function IndexOfFilename(memories: seq<Record>, filename: Option<string>): (r: Option<nat>)
    ensures r.Some? ==> r.value < |memories| && Lookup(memories[r.value], "filename") == filename
    ensures r.Some? ==> forall j :: 0 <= j < r.value ==> Lookup(memories[j], "filename") != filename
    ensures r.None? <==> forall j :: 0 <= j < |memories| ==> Lookup(memories[j], "filename") != filename
  {
    Seqs.FindFirst(memories, HasFilename(filename))
  }

  /** `splice(i, 1)`: the record at `i` leaves, the others keep their order. */
  function RemoveAt(memories: seq<Record>, i: nat): (r: seq<Record>)
    requires i < |memories|
    ensures |r| == |memories| - 1
    ensures forall j :: 0 <= j < i ==> r[j] == memories[j]
    ensures forall j :: i <= j < |r| ==> r[j] == memories[j + 1]
  {
    memories[..i] + memories[i + 1..]
  }

  /** Removal takes exactly one copy of the removed record out of the table. */
  lemma RemoveAtMultiset(memories: seq<Record>, i: nat)
    requires i < |memories|
    ensures multiset(RemoveAt(memories, i)) + multiset{memories[i]} == multiset(memories)
  {
    assert memories == memories[..i] + [memories[i]] + memories[i + 1..];
  }

  /** Every record of the table has a file name. */
  ghost predicate AllNamed(memories: seq<Record>)
  {
    forall j :: 0 <= j < |memories| ==> "filename" in memories[j]
  }

  /** Without a file name in the query an update or deletion finds nothing in a table whose records are all named. */
  lemma MissingFilenameFindsNothing(memories: seq<Record>)
    requires AllNamed(memories)
    ensures IndexOfFilename(memories, None).None?
  {
  }

  /** A created record is found by its file name unless an earlier record already has that name. */
  lemma CreatedIsFound(memories: seq<Record>, body: Record, clock: Clock)
    requires IndexOfFilename(memories, Some(NewFilename(clock.fileMillis))).None?
    ensures IndexOfFilename(memories + [Created(body, clock)], Some(NewFilename(clock.fileMillis))) == Some(|memories|)
  {
    var f := Some(NewFilename(clock.fileMillis));
    var t := memories + [Created(body, clock)];
    assert forall j :: 0 <= j < |memories| ==> t[j] == memories[j];
    assert Lookup(t[|memories|], "filename") == f;
  }

  // ---------------------------------------------------------------------------
  // The table
  // ---------------------------------------------------------------------------

  /** `mockMemories`: the records the endpoint serves, replaced by every write. */
  class MemoryTable {
    var memories: seq<Record>

    /** The two demonstration records, each stamped with its own reading of the clock as the module loads. */
    constructor (loaded1: string, loaded2: string)
      ensures memories == [
        map["id" := "1", "title" := "演示记忆1", "category" := "个人信息",
            "content" := "这是一个演示记忆，展示记忆库功能", "timestamp" := loaded1, "filename" := "demo1.json"],
        map["id" := "2", "title" := "演示记忆2", "category" := "人生规划",
            "content" := "这是另一个演示记忆，展示编辑功能", "timestamp" := loaded2, "filename" := "demo2.json"]]
      ensures AllNamed(memories)
    {
      memories := [
        map["id" := "1", "title" := "演示记忆1", "category" := "个人信息",
            "content" := "这是一个演示记忆，展示记忆库功能", "timestamp" := loaded1, "filename" := "demo1.json"],
        map["id" := "2", "title" := "演示记忆2", "category" := "人生规划",
            "content" := "这是另一个演示记忆，展示编辑功能", "timestamp" := loaded2, "filename" := "demo2.json"]];
    }

    /** `POST`: the new record is appended and returned with status 201. */
    method Create(body: Record, clock: Clock) returns (res: Response)
      modifies this
      ensures memories == old(memories) + [Created(body, clock)]
      ensures res == Response(201, Memory(Created(body, clock)))
      ensures AllNamed(old(memories)) ==> AllNamed(memories)
    {
      var created := Created(body, clock);
      memories := memories + [created];
      res := Response(201, Memory(created));
    }

    /**
     * `PUT ?filename=`: 404 when no record has that file name; otherwise the
     * first such record is merged with the body and restamped.
     */
    method Update(filename: Option<string>, body: Record, iso: string) returns (res: Response)
      modifies this
      ensures IndexOfFilename(old(memories), filename).None? ==>
        res == Response(404, Refused(NotFound)) && memories == old(memories)
      ensures IndexOfFilename(old(memories), filename).Some? ==>
        var i := IndexOfFilename(old(memories), filename).value;
        && memories == old(memories)[i := Merged(old(memories)[i], body, iso)]
        && res == Response(200, Updated(memories[i]))
      ensures AllNamed(old(memories)) ==> AllNamed(memories)
    {
      var found := IndexOfFilename(memories, filename);
      if found.None? {
        return Response(404, Refused(NotFound));
      }
      var i := found.value;
      memories := memories[i := Merged(memories[i], body, iso)];
      res := Response(200, Updated(memories[i]));
    }

    /** `DELETE ?filename=`: 404 when no record has that file name; otherwise the first such record is removed. */
    method Delete(filename: Option<string>) returns (res: Response)
      modifies this
      ensures IndexOfFilename(old(memories), filename).None? ==>
        res == Response(404, Refused(NotFound)) && memories == old(memories)
      ensures IndexOfFilename(old(memories), filename).Some? ==>
        && memories == RemoveAt(old(memories), IndexOfFilename(old(memories), filename).value)
        && res == Response(200, Removed)
      ensures AllNamed(old(memories)) ==> AllNamed(memories)
    {
      var found := IndexOfFilename(memories, filename);
      if found.None? {
        return Response(404, Refused(NotFound));
      }
      memories := RemoveAt(memories, found.value);
      res := Response(200, Removed);
    }

    /** The handler: `OPTIONS` answers the preflight, the four verbs act on the table, anything else is 405. */
    method Handle(req: Request, clock: Clock) returns (res: Response)
      modifies this
      ensures req.verb == "OPTIONS" ==> res == Response(200, Empty) && memories == old(memories)
      ensures req.verb == "GET" ==> res == Response(200, Memories(old(memories))) && memories == old(memories)
      ensures req.verb == "POST" ==>
        memories == old(memories) + [Created(req.body, clock)] && res == Response(201, Memory(Created(req.body, clock)))
      ensures req.verb in {"PUT", "DELETE"} && !IndexOfFilename(old(memories), Lookup(req.query, "filename")).Some? ==>
        res == Response(404, Refused(NotFound)) && memories == old(memories)
      ensures req.verb == "PUT" && IndexOfFilename(old(memories), Lookup(req.query, "filename")).Some? ==>
        var i := IndexOfFilename(old(memories), Lookup(req.query, "filename")).value;
        && memories == old(memories)[i := Merged(old(memories)[i], req.body, clock.iso)]
        && res == Response(200, Updated(memories[i]))
      ensures req.verb == "DELETE" && IndexOfFilename(old(memories), Lookup(req.query, "filename")).Some? ==>
        && memories == RemoveAt(old(memories), IndexOfFilename(old(memories), Lookup(req.query, "filename")).value)
        && res == Response(200, Removed)
      ensures req.verb !in {"OPTIONS", "GET", "POST", "PUT", "DELETE"} ==>
        res == Response(405, Refused(NotAllowed)) && memories == old(memories)
      ensures AllNamed(old(memories)) ==> AllNamed(memories)
    {
      if req.verb == "OPTIONS" {
        return Response(200, Empty);
      }
      match req.verb
      case "GET" =>
        res := Response(200, Memories(memories));
      case "POST" =>
        res := Create(req.body, clock);
      case "PUT" =>
        res := Update(Lookup(req.query, "filename"), req.body, clock.iso);
      case "DELETE" =>
        res := Delete(Lookup(req.query, "filename"));
      case _ =>
        res := Response(405, Refused(NotAllowed));
    }
  }
}

=== FILE: MemoryRelevance.dfy ===
/**
 * `findRelevantMemories`: which stored memories accompany a chat message,
 * ranked by how often and where the message's keywords occur in them.
 */
module MemoryRelevance {
  import opened JsText
  import Seqs

  /** The parts of a memory the ranking reads. */
  datatype Memory = Memory(title: string, content: string, category: string)

  /** A memory with its score. */
  datatype Scored = Scored(memory: Memory, score: int)

  /**
   * `toLowerCase`, applied character by character with the mapping `lower`
   * (the Unicode case tables are a parameter of the model).
   */
  function Lower(s: string, lower: char -> char): (r: string)
    ensures |r| == |s|
    ensures forall i :: 0 <= i < |s| ==> r[i] == lower(s[i])
  {
    Seqs.Map(s, lower)
  }

  /** Questions this general bring every memory along. */
  const BroadWords: seq<string> := ["什么", "谁", "哪里", "怎样", "如何", "介绍", "关于", "告诉我", "说说"]

  /** A broad question: it mentions one of the broad words, or is at most three characters long. */
  predicate IsBroad(sq: string)
  {
    (exists i :: 0 <= i < |BroadWords| && Contains(sq, BroadWords[i])) || |sq| <= 3
  }

  predicate LongerThanOne(w: string)
  {
    |w| > 1
  }

  /** `split(/\s+/).filter(keyword => keyword.length > 1)`: the words of the question longer than one character. */
  function Keywords(sq: string): (ks: seq<string>)
    ensures forall i :: 0 <= i < |ks| ==> |ks[i]| > 1
    ensures forall i, j :: 0 <= i < |ks| && 0 <= j < |ks[i]| ==> !IsSpace(ks[i][j])
  {
    var words := Split(sq, IsSpace);
    var ks := Seqs.Filter(words, LongerThanOne);
    assert forall i :: 0 <= i < |ks| ==> ks[i] in words;
    ks
  }

  /** The keywords are exactly the words longer than one character, in the order of the question. */
  lemma KeywordsAreLongWords(sq: string)
    ensures forall w :: w in Keywords(sq) <==> w in Split(sq, IsSpace) && |w| > 1
    ensures Seqs.IsSubsequence(Keywords(sq), Split(sq, IsSpace))
  {
    var words := Split(sq, IsSpace);
    forall w
      ensures w in Keywords(sq) <==> w in words && LongerThanOne(w)
    {
      Seqs.FilterMembership(words, LongerThanOne, w);
    }
    Seqs.FilterIsSubsequence(words, LongerThanOne);
  }

  /** The lowered text a memory is searched in: title, content and category separated by spaces. */
  function MemoryText(m: Memory, lower: char -> char): string
  {
    Lower(m.title + " " + m.content + " " + m.category, lower)
  }

  /**
   * What one keyword adds: two points per occurrence in the memory's text,
   * and, when it occurs at all, five more for the title and four more for
   * the category.
   */
  function KeywordScore(m: Memory, k: string, lower: char -> char): (score: int)
    requires k != []
    ensures score >= 0
    ensures score > 0 <==> Contains(MemoryText(m, lower), k)
    ensures score > 0 ==> score >= 2 * CountOccurrences(MemoryText(m, lower), k)
  {
    var count := CountOccurrences(MemoryText(m, lower), k);
    if count == 0 then 0
    else
      2 * count
      + (if Contains(Lower(m.title, lower), k) then 5 else 0)
      + (if Contains(Lower(m.category, lower), k) then 4 else 0)
  }

  predicate AllNonEmpty(ks: seq<string>)
  {
    forall i :: 0 <= i < |ks| ==> ks[i] != []
  }

  /** The score of a memory: the sum of what each keyword adds. */
  function ScoreOf(m: Memory, ks: seq<string>, lower: char -> char): (score: int)
    requires AllNonEmpty(ks)
    ensures score >= 0
  {
    if ks == [] then 0
    else ScoreOf(m, ks[..|ks| - 1], lower) + KeywordScore(m, ks[|ks| - 1], lower)
  }

  /** A memory scores exactly when one of the keywords occurs in its text. */
  lemma {:induction false} ScorePositiveIff(m: Memory, ks: seq<string>, lower: char -> char)
    requires AllNonEmpty(ks)
    ensures ScoreOf(m, ks, lower) > 0 <==> exists i :: 0 <= i < |ks| && Contains(MemoryText(m, lower), ks[i])
  {
    if ks != [] {
      var init := ks[..|ks| - 1];
      ScorePositiveIff(m, init, lower);
      assert forall i :: 0 <= i < |init| ==> init[i] == ks[i];
    }
  }

  /** `memories.map(memory => ({ memory, score }))`. */
  function Scores(memories: seq<Memory>, ks: seq<string>, lower: char -> char): (r: seq<Scored>)
    requires AllNonEmpty(ks)
    ensures |r| == |memories|
    ensures forall i :: 0 <= i < |r| ==> r[i] == Scored(memories[i], ScoreOf(memories[i], ks, lower))
  {
    if memories == [] then []
    else
      var last := memories[|memories| - 1];
      Scores(memories[..|memories| - 1], ks, lower) + [Scored(last, ScoreOf(last, ks, lower))]
  }

  predicate Positive(x: Scored)
  {
    x.score > 0
  }

  // ---------------------------------------------------------------------------
  // Sorting by descending score
  // ---------------------------------------------------------------------------

  /** Scores never increase along the sequence. */
  ghost predicate Descending(xs: seq<Scored>)
  {
    forall i, j :: 0 <= i < j < |xs| ==> xs[i].score >= xs[j].score
  }

  /** `x` goes in front of the first element that does not score more than it. */
  function Insert(x: Scored, ys: seq<Scored>): (r: seq<Scored>)
    ensures multiset(r) == multiset{x} + multiset(ys)
  {
    if ys == [] || x.score >= ys[0].score then [x] + ys
    else
      assert ys == [ys[0]] + ys[1..];
      [ys[0]] + Insert(x, ys[1..])
  }

  /**
   * `sort((a, b) => b.score - a.score)` with a stable sort: descending scores,
   * equal scores in their original order.
   */
  function SortByScore(xs: seq<Scored>): (r: seq<Scored>)
    ensures multiset(r) == multiset(xs)
  {
    if xs == [] then []
    else
      assert xs == [xs[0]] + xs[1..];
      Insert(xs[0], SortByScore(xs[1..]))
  }

  lemma {:induction false} InsertDescending(x: Scored, ys: seq<Scored>)
    requires Descending(ys)
    ensures Descending(Insert(x, ys))
  {
    if ys != [] && x.score < ys[0].score {
      InsertDescending(x, ys[1..]);
      InsertBelow(x, ys);
      DescendingCons(ys[0], Insert(x, ys[1..]));
    }
  }

  /** Inserting below the head keeps every element at most the head's score. */
  lemma InsertBelow(x: Scored, ys: seq<Scored>)
    requires Descending(ys) && ys != [] && x.score < ys[0].score
    ensures forall j :: 0 <= j < |Insert(x, ys[1..])| ==> Insert(x, ys[1..])[j].score <= ys[0].score
  {
    var rest := Insert(x, ys[1..]);
    forall j | 0 <= j < |rest|
      ensures rest[j].score <= ys[0].score
    {
      assert rest[j] in multiset(rest);
    }
  }

  /** A head scoring at least every element of a descending tail gives a descending sequence. */
  lemma DescendingCons(y: Scored, rest: seq<Scored>)
    requires Descending(rest)
    requires forall j :: 0 <= j < |rest| ==> rest[j].score <= y.score
    ensures Descending([y] + rest)
  {
  }

  /** The sort leaves the scores in descending order. */
  lemma {:induction false} SortDescending(xs: seq<Scored>)
    ensures Descending(SortByScore(xs))
  {
    if xs != [] {
      SortDescending(xs[1..]);
      InsertDescending(xs[0], SortByScore(xs[1..]));
    }
  }

  function WithScore(s: int): (p: Scored -> bool)
    ensures forall x :: p(x) <==> x.score == s
  {
    (x: Scored) => x.score == s
  }

  lemma FilterCons(x: Scored, ys: seq<Scored>, p: Scored -> bool)
    ensures Seqs.Filter([x] + ys, p) == (if p(x) then [x] else []) + Seqs.Filter(ys, p)
  {
    assert ([x] + ys)[1..] == ys;
  }

  lemma {:induction false} InsertStable(x: Scored, ys: seq<Scored>, s: int)
    requires Descending(ys)
    ensures Seqs.Filter(Insert(x, ys), WithScore(s)) == Seqs.Filter([x] + ys, WithScore(s))
  {
    var p := WithScore(s);
    if ys != [] && x.score < ys[0].score {
      InsertStable(x, ys[1..], s);
      FilterCons(ys[0], Insert(x, ys[1..]), p);
      FilterCons(x, ys[1..], p);
      FilterCons(x, ys, p);
      FilterCons(ys[0], ys[1..], p);
      assert [ys[0]] + ys[1..] == ys;
    }
  }

  /** The sort is stable: the elements of any one score keep their order. */
  lemma {:induction false} SortStable(xs: seq<Scored>, s: int)
    ensures Seqs.Filter(SortByScore(xs), WithScore(s)) == Seqs.Filter(xs, WithScore(s))
  {
    if xs != [] {
      SortStable(xs[1..], s);
      SortDescending(xs[1..]);
      InsertKeepsStable(xs[0], SortByScore(xs[1..]), xs[1..], s);
      assert [xs[0]] + xs[1..] == xs;
    }
  }

  /** Inserting into a descending sequence that agrees with `rest` on score `s` agrees with `[x] + rest`. */
  lemma InsertKeepsStable(x: Scored, sorted: seq<Scored>, rest: seq<Scored>, s: int)
    requires Descending(sorted)
    requires Seqs.Filter(sorted, WithScore(s)) == Seqs.Filter(rest, WithScore(s))
    ensures Seqs.Filter(Insert(x, sorted), WithScore(s)) == Seqs.Filter([x] + rest, WithScore(s))
  {
    var p := WithScore(s);
    InsertStable(x, sorted, s);
    FilterCons(x, sorted, p);
    FilterCons(x, rest, p);
  }

  // ---------------------------------------------------------------------------
  // The ranking
  // ---------------------------------------------------------------------------

  function MemoryOf(x: Scored): Memory
  {
    x.memory
  }

  /** The memories that score, best first, ties in their stored order. */
  function Ranked(memories: seq<Memory>, ks: seq<string>, lower: char -> char): (r: seq<Memory>)
    requires AllNonEmpty(ks)
    ensures |r| <= |memories|
  {
    var kept := Seqs.Filter(Scores(memories, ks, lower), Positive);
    assert |multiset(SortByScore(kept))| == |multiset(kept)|;
    Seqs.Map(SortByScore(Seqs.Filter(Scores(memories, ks, lower), Positive)), MemoryOf)
  }

  /** The whole of `findRelevantMemories`: never more memories than are stored. */
  function Relevant(query: string, memories: seq<Memory>, lower: char -> char): (r: seq<Memory>)
    ensures |r| <= |memories|
  {
    if query == [] || memories == [] then []
    else
      var sq := Lower(query, lower);
      if IsBroad(sq) then memories
      else
        var ks := Keywords(sq);
        assert AllNonEmpty(ks);
        if ks == [] then memories
        else
          var ranked := Ranked(memories, ks, lower);
          if ranked == [] then memories else ranked
  }

  /** No memories come back exactly when the query or the store is empty. */
  lemma RelevantEmptyIff(query: string, memories: seq<Memory>, lower: char -> char)
    ensures Relevant(query, memories, lower) == [] <==> query == [] || memories == []
  {
  }

  /** A broad question brings every stored memory, in the stored order. */
  lemma BroadQuestionTakesAll(query: string, memories: seq<Memory>, lower: char -> char)
    requires IsBroad(Lower(query, lower)) && query != []
    ensures Relevant(query, memories, lower) == memories
  {
  }

  /** Every element of the sorted, filtered scores carries its memory's score, which is positive. */
  lemma SortedScoresFaithful(memories: seq<Memory>, ks: seq<string>, lower: char -> char)
    requires AllNonEmpty(ks)
    ensures var kept := Seqs.Filter(Scores(memories, ks, lower), Positive);
      forall e :: e in SortByScore(kept) ==>
        e in Scores(memories, ks, lower) && e.score == ScoreOf(e.memory, ks, lower) && e.score > 0
  {
    var scored := Scores(memories, ks, lower);
    var kept := Seqs.Filter(scored, Positive);
    forall e | e in SortByScore(kept)
      ensures e in scored && e.score == ScoreOf(e.memory, ks, lower) && e.score > 0
    {
      assert e in multiset(SortByScore(kept));
      assert e in kept;
      var k :| 0 <= k < |scored| && scored[k] == e;
    }
  }

  /** The ranking orders the memories by descending score. */
  lemma RankedDescending(memories: seq<Memory>, ks: seq<string>, lower: char -> char)
    requires AllNonEmpty(ks)
    ensures var r := Ranked(memories, ks, lower);
      forall i, j :: 0 <= i < j < |r| ==> ScoreOf(r[i], ks, lower) >= ScoreOf(r[j], ks, lower)
  {
    var sorted := SortByScore(Seqs.Filter(Scores(memories, ks, lower), Positive));
    var r := Ranked(memories, ks, lower);
    SortDescending(Seqs.Filter(Scores(memories, ks, lower), Positive));
    SortedScoresFaithful(memories, ks, lower);
    forall i, j | 0 <= i < j < |r|
      ensures ScoreOf(r[i], ks, lower) >= ScoreOf(r[j], ks, lower)
    {
      assert sorted[i] in sorted && sorted[j] in sorted;
    }
  }

  /** Only stored memories that score are ranked. */
  lemma RankedSound(memories: seq<Memory>, ks: seq<string>, lower: char -> char, i: nat)
    requires AllNonEmpty(ks) && i < |Ranked(memories, ks, lower)|
    ensures Ranked(memories, ks, lower)[i] in memories
    ensures ScoreOf(Ranked(memories, ks, lower)[i], ks, lower) > 0
  {
    var scored := Scores(memories, ks, lower);
    var sorted := SortByScore(Seqs.Filter(scored, Positive));
    SortedScoresFaithful(memories, ks, lower);
    assert sorted[i] in sorted;
    var k :| 0 <= k < |scored| && scored[k] == sorted[i];
  }

  /** Every stored memory that scores is ranked. */
  lemma RankedComplete(memories: seq<Memory>, ks: seq<string>, lower: char -> char, k: nat)
    requires AllNonEmpty(ks) && k < |memories| && ScoreOf(memories[k], ks, lower) > 0
    ensures memories[k] in Ranked(memories, ks, lower)
  {
    var scored := Scores(memories, ks, lower);
    var sorted := SortByScore(Seqs.Filter(scored, Positive));
    SortedHolds(scored, k);
    var i :| 0 <= i < |sorted| && sorted[i] == scored[k];
    MappedIn(sorted, i);
  }

  /** The memory of an entry of the sorted scores is among the ranked memories. */
  lemma MappedIn(sorted: seq<Scored>, i: nat)
    requires i < |sorted|
    ensures sorted[i].memory in Seqs.Map(sorted, MemoryOf)
  {
    assert Seqs.Map(sorted, MemoryOf)[i] == sorted[i].memory;
  }

  /** A scoring entry survives the filter and the sort. */
  lemma SortedHolds(scored: seq<Scored>, k: nat)
    requires k < |scored| && Positive(scored[k])
    ensures scored[k] in SortByScore(Seqs.Filter(scored, Positive))
  {
    Seqs.FilterMembership(scored, Positive, scored[k]);
    assert scored[k] in multiset(SortByScore(Seqs.Filter(scored, Positive)));
  }

  /** When no memory scores, every stored memory comes back. */
  lemma {:induction false} NothingScoresTakesAll(memories: seq<Memory>, ks: seq<string>, lower: char -> char)
    requires AllNonEmpty(ks)
    requires forall i :: 0 <= i < |memories| ==> ScoreOf(memories[i], ks, lower) == 0
    ensures Ranked(memories, ks, lower) == []
  {
    Seqs.FilterEmptyIff(Scores(memories, ks, lower), Positive);
  }

  /** A question none of whose words is longer than one character brings every stored memory. */
  lemma NoKeywordTakesAll(query: string, memories: seq<Memory>, lower: char -> char)
    requires query != [] && !IsBroad(Lower(query, lower))
    requires forall w :: w in Split(Lower(query, lower), IsSpace) ==> |w| <= 1
    ensures Relevant(query, memories, lower) == memories
  {
    KeywordsAreLongWords(Lower(query, lower));
  }

  /** A specific question that some memory answers gets the ranking rather than the whole store. */
  lemma RelevantIsRanking(query: string, memories: seq<Memory>, lower: char -> char, k: nat)
    requires query != [] && k < |memories|
    requires !IsBroad(Lower(query, lower)) && Keywords(Lower(query, lower)) != []
    requires ScoreOf(memories[k], Keywords(Lower(query, lower)), lower) > 0
    ensures Relevant(query, memories, lower) == Ranked(memories, Keywords(Lower(query, lower)), lower)
  {
    RankedComplete(memories, Keywords(Lower(query, lower)), lower, k);
  }

  /** The score of one memory, summed keyword by keyword as `keywords.forEach` does. */
  method ScoreMemory(m: Memory, ks: seq<string>, lower: char -> char) returns (score: int)
    requires AllNonEmpty(ks)
    ensures score == ScoreOf(m, ks, lower)
  {
    score := 0;
    for j := 0 to |ks|
      invariant score == ScoreOf(m, ks[..j], lower)
    {
      assert ks[..j + 1][..j] == ks[..j];
      score := score + KeywordScore(m, ks[j], lower);
    }
    assert ks[..|ks|] == ks;
  }

  /** `findRelevantMemories`, computing the scores with the loops of the source. */
  method FindRelevantMemories(query: string, memories: seq<Memory>, lower: char -> char) returns (r: seq<Memory>)
    ensures r == Relevant(query, memories, lower)
  {
    if query == [] || memories == [] {
      return [];
    }
    var sq := Lower(query, lower);
    if IsBroad(sq) {
      return memories;
    }
    var ks := Keywords(sq);
    if ks == [] {
      return memories;
    }
    var scored: seq<Scored> := [];
    for i := 0 to |memories|
      invariant scored == Scores(memories[..i], ks, lower)
    {
      var m := memories[i];
      var score := ScoreMemory(m, ks, lower);
      assert memories[..i + 1][..i] == memories[..i];
      scored := scored + [Scored(m, score)];
    }
    assert memories[..|memories|] == memories;
    var ranked := Seqs.Map(SortByScore(Seqs.Filter(scored, Positive)), MemoryOf);
    r := if ranked == [] then memories else ranked;
  }
}

=== FILE: NoteServer.dfy ===
/**
 * The personal-note store of `server.js`: notes are markdown files in one
 * folder. Saving sanitises the file name, listing derives each note's title and
 * category from its file, updating rewrites the title lines, deleting removes
 * the file. The folder is a field `files` from file name to file content, which
 * the handlers update in place.
 */
module NoteServer {
  import opened Wrappers
  import opened JsText
  import Seqs

  /** A note as `GET /api/memories` reports it (its `timestamp`, the file's mtime, is not modelled). */
  datatype Note = Note(
    id: string,
    title: string,
    content: string,
    category: string,
    filename: string,
    sourceFile: string)

  /** What a handler answers: success for a file name, or an HTTP error status with its message. */
  datatype Reply = Ok(filename: string) | Error(status: int, error: string)

  const MissingFields: string := "文件名和内容不能为空"
  const NoSuchFile: string := "文件不存在"

  /** A request field counts as given when it is present and not empty (the truthiness of a string). */
  predicate Given(v: Option<string>)
  {
    v.Some? && v.value != []
  }

  // ---------------------------------------------------------- file names

  /** The characters `[a-zA-Z0-9一-龥.-]` that the file-name rule keeps. */
  predicate IsFilenameChar(c: char)
  {
    || ('a' <= c <= 'z') || ('A' <= c <= 'Z') || ('0' <= c <= '9')
    || ('\U{4E00}' <= c <= '\U{9FA5}')
    || c == '.' || c == '-'
  }

  /** The name a note is saved under: every character outside the kept class becomes `_`. */
  function SafeFilename(name: string): (r: string)
    ensures |r| == |name|
    ensures forall i :: 0 <= i < |r| ==> IsFilenameChar(r[i]) || r[i] == '_'
    ensures forall i :: 0 <= i < |name| && IsFilenameChar(name[i]) ==> r[i] == name[i]
    ensures forall i :: 0 <= i < |name| && !IsFilenameChar(name[i]) ==> r[i] == '_'
  {
    if name == [] then []
    else [if IsFilenameChar(name[0]) then name[0] else '_'] + SafeFilename(name[1..])
  }

  /** Sanitising an already sanitised name changes nothing. */
  lemma SafeFilenameIdempotent(name: string)
    ensures SafeFilename(SafeFilename(name)) == SafeFilename(name)
  {
    var once := SafeFilename(name);
    var twice := SafeFilename(once);
    forall i | 0 <= i < |once| ensures twice[i] == once[i] {
      if !IsFilenameChar(once[i]) {
        assert once[i] == '_';
      }
    }
  }

  /** A name made only of kept characters is saved under that very name. */
  lemma SafeFilenameKeepsAllowed(name: string)
    requires forall i :: 0 <= i < |name| ==> IsFilenameChar(name[i])
    ensures SafeFilename(name) == name
  {
  }

  /** `file.endsWith('.md')`: only such files are listed. */
  predicate IsMarkdownName(name: string)
  {
    EndsWith(name, ".md")
  }

  // ------------------------------------------------------------- titles

  /** `line.startsWith('# ')`. */
  predicate IsHeading(line: string)
  {
    StartsWith(line, "# ")
  }

  /** Line `i` is the first heading line. */
  ghost predicate FirstHeadingAt(lines: seq<string>, i: int)
  {
    0 <= i < |lines| && IsHeading(lines[i]) && forall j :: 0 <= j < i ==> !IsHeading(lines[j])
  }

  /** The title used when the content supplies none: the name with its first `.md` removed. */
  function FallbackTitle(filename: string): string
  {
    ReplaceFirst(filename, ".md", "")
  }

  /**
   * A note's title: the first line (of `content.split('\n')`) that starts with
   * `# `, without that prefix; when there is no such line, or the rest of that
   * line is empty (an empty string is falsy), the fallback title.
   */
  function TitleOf(filename: string, content: string): (title: string)
    ensures var lines := Split(content, Is('\n'));
      forall i :: FirstHeadingAt(lines, i) && |lines[i]| > 2 ==> title == lines[i][2..]
    ensures var lines := Split(content, Is('\n'));
      forall i :: FirstHeadingAt(lines, i) && |lines[i]| == 2 ==> title == FallbackTitle(filename)
    ensures var lines := Split(content, Is('\n'));
      (forall i :: 0 <= i < |lines| ==> !IsHeading(lines[i])) ==> title == FallbackTitle(filename)
  {
    var lines := Split(content, Is('\n'));
    var heading :=
      match Seqs.FindFirst(lines, IsHeading)
      case Some(i) => ReplaceFirst(lines[i], "# ", "")
      case None => "";
    FirstHeadingFound(lines);
    HeadingText(lines);
    if heading != [] then heading else FallbackTitle(filename)
  }

  /** The search for a heading line stops at the first one. */
  lemma FirstHeadingFound(lines: seq<string>)
    ensures forall i :: FirstHeadingAt(lines, i) ==> Seqs.FindFirst(lines, IsHeading) == Some(i)
  {
  }

  /** Removing the first `# ` of a heading line leaves the text after the prefix. */
  lemma HeadingText(lines: seq<string>)
    ensures forall i :: 0 <= i < |lines| && IsHeading(lines[i]) ==> ReplaceFirst(lines[i], "# ", "") == lines[i][2..]
  {
  }

  /** The fallback removes the FIRST `.md`, which need not be the extension. */
  lemma FallbackRemovesFirstExtension()
    ensures FallbackTitle("v1.mdx.md") == "v1x.md"
  {
    var name := "v1.mdx.md";
    FirstExtensionAt(name);
    ReplaceFirstAt(name, ".md", "", 2);
    FirstExtensionRemoved(name);
  }

  /** Cutting out `name[2..5]` leaves `v1x.md`. */
  lemma FirstExtensionRemoved(name: string)
    requires name == "v1.mdx.md"
    ensures name[..2] + "" + name[5..] == "v1x.md"
  {
    assert name[..2] == "v1" && name[5..] == "x.md";
  }

  /** In `v1.mdx.md` the first `.md` starts at index 2. */
  lemma FirstExtensionAt(name: string)
    requires name == "v1.mdx.md"
    ensures IndexOf(name, ".md") == Some(2)
  {
    assert OccursAt(name, ".md", 2) by { assert name[2..5] == ".md"; }
    assert !OccursAt(name, ".md", 0) by { assert name[0] != '.'; }
    assert !OccursAt(name, ".md", 1) by { assert name[1] != '.'; }
    IndexOfFirst(name, ".md", 2);
  }

  // ----------------------------------------------------------- categories

  /** The category chain: the first keyword contained in the file name decides. */
  const CategoryRules: seq<(string, string)> := [
    ("基本信息", "个人信息"),
    ("愿景", "人生规划"),
    ("价值观", "个人价值"),
    ("成就", "个人成就"),
    ("时间线", "人生历程"),
    ("习惯", "生活习惯"),
    ("人际关系", "人际关系"),
    ("家庭", "家庭关系"),
    ("愿望", "个人愿望"),
    ("快照", "个人资料")
  ]

  const DefaultCategory: string := "个人记忆"

  /** The category given by the first rule of `rules` whose keyword the name contains. */
  function FirstMatchingCategory(filename: string, rules: seq<(string, string)>): (category: string)
    ensures forall i ::
      (&& 0 <= i < |rules| && Contains(filename, rules[i].0)
       && (forall j :: 0 <= j < i ==> !Contains(filename, rules[j].0)))
      ==> category == rules[i].1
    ensures (forall i :: 0 <= i < |rules| ==> !Contains(filename, rules[i].0)) ==> category == DefaultCategory
  {
    if rules == [] then DefaultCategory
    else if Contains(filename, rules[0].0) then rules[0].1
    else
      var rest := FirstMatchingCategory(filename, rules[1..]);
      assert forall i :: 1 <= i < |rules| ==> rules[i] == rules[1..][i - 1];
      rest
  }

  /** `server.js`'s category of a note file. */
  function CategoryOf(filename: string): string
  {
    FirstMatchingCategory(filename, CategoryRules)
  }

  /** A name with both `基本信息` and `愿景` is filed under the earlier rule. */
  lemma EarlierRuleWins(filename: string)
    requires Contains(filename, "基本信息") && Contains(filename, "愿景")
    ensures CategoryOf(filename) == "个人信息"
  {
    assert CategoryRules[0] == ("基本信息", "个人信息");
  }

  /** No rule files a note under the default category. */
  lemma DefaultIsNoRuleCategory()
    ensures forall k :: 0 <= k < |CategoryRules| ==> CategoryRules[k].1 != DefaultCategory
  {
    forall k | 0 <= k < |CategoryRules| ensures CategoryRules[k].1 != DefaultCategory {
      assert DefaultCategory[2] == '记';
      assert CategoryRules[k].1[2] != '记';
    }
  }

  /** The default category is given exactly to names containing none of the ten keywords. */
  lemma DefaultCategoryIff(filename: string)
    ensures CategoryOf(filename) == DefaultCategory
      <==> forall i :: 0 <= i < |CategoryRules| ==> !Contains(filename, CategoryRules[i].0)
  {
    if CategoryOf(filename) == DefaultCategory {
      forall i | 0 <= i < |CategoryRules| ensures !Contains(filename, CategoryRules[i].0) {
        if Contains(filename, CategoryRules[i].0) {
          var k := FirstRuleIndex(filename, CategoryRules, i);
          DefaultIsNoRuleCategory();
        }
      }
    }
  }

  /** Some rule up to `i` is the first one that matches. */
  lemma FirstRuleIndex(filename: string, rules: seq<(string, string)>, i: int) returns (k: int)
    requires 0 <= i < |rules| && Contains(filename, rules[i].0)
    ensures 0 <= k <= i && Contains(filename, rules[k].0)
    ensures forall j :: 0 <= j < k ==> !Contains(filename, rules[j].0)
  {
    k := 0;
    while !Contains(filename, rules[k].0)
      invariant 0 <= k <= i
      invariant forall j :: 0 <= j < k ==> !Contains(filename, rules[j].0)
      decreases i - k
    {
      k := k + 1;
    }
  }

  // -------------------------------------------------------- title rewrite

  /** The per-line rewrite of an update: every heading line becomes `# ` + title. */
  function Retitle(title: string): string -> string
  {
    line => if IsHeading(line) then "# " + title else line
  }

  /**
   * The content `PUT /api/memories/:filename` writes: with a given title, every
   * heading line is replaced by `# ` + title, or, when there is none, a heading
   * and a blank line are put in front; without a title the content is kept.
   */
  function UpdatedContent(content: string, title: Option<string>): string
  {
    if !Given(title) then content
    else
      var lines := Split(content, Is('\n'));
      if Seqs.FindFirst(lines, IsHeading).Some? then Join(Seqs.Map(lines, Retitle(title.value)), "\n")
      else "# " + title.value + "\n\n" + content
  }

  /**
   * Rewriting the heading lines keeps the number of lines; each heading line
   * becomes `# ` + title and every other line is unchanged (for a title that is
   * itself one line).
   */
  lemma RetitleKeepsLines(content: string, title: string)
    requires title != [] && forall j :: 0 <= j < |title| ==> title[j] != '\n'
    requires Seqs.FindFirst(Split(content, Is('\n')), IsHeading).Some?
    ensures var before := Split(content, Is('\n'));
      var after := Split(UpdatedContent(content, Some(title)), Is('\n'));
      && |after| == |before|
      && (forall i :: 0 <= i < |before| && IsHeading(before[i]) ==> after[i] == "# " + title)
      && (forall i :: 0 <= i < |before| && !IsHeading(before[i]) ==> after[i] == before[i])
  {
    var before := Split(content, Is('\n'));
    var mapped := Seqs.Map(before, Retitle(title));
    forall i, j | 0 <= i < |mapped| && 0 <= j < |mapped[i]| ensures mapped[i][j] != '\n' {
      if IsHeading(before[i]) {
        assert mapped[i] == "# " + title;
        if j >= 2 {
          assert mapped[i][j] == title[j - 2];
        }
      }
    }
    SplitJoin(mapped, '\n');
  }

  /** Without a heading line the update puts `# ` + title and a blank line in front. */
  lemma RetitlePrependsHeading(content: string, title: string)
    requires title != []
    requires Seqs.FindFirst(Split(content, Is('\n')), IsHeading).None?
    ensures UpdatedContent(content, Some(title)) == "# " + title + "\n\n" + content
  {
  }

  /** An update without a title writes the content as given. */
  lemma NoTitleKeepsContent(content: string, title: Option<string>)
    requires !Given(title)
    ensures UpdatedContent(content, title) == content
  {
  }

  /** After an update with a one-line title, listing the note reports that title. */
  lemma RetitleThenTitle(filename: string, content: string, title: string)
    requires title != [] && forall j :: 0 <= j < |title| ==> title[j] != '\n'
    ensures TitleOf(filename, UpdatedContent(content, Some(title))) == title
  {
    var before := Split(content, Is('\n'));
    var updated := UpdatedContent(content, Some(title));
    var after := Split(updated, Is('\n'));
    if Seqs.FindFirst(before, IsHeading).Some? {
      var k := Seqs.FindFirst(before, IsHeading).value;
      RetitleKeepsLines(content, title);
      assert FirstHeadingAt(after, k);
      assert after[k][2..] == title;
    } else {
      var head := "# " + title;
      assert forall j :: 0 <= j < |head| ==> head[j] != '\n' by {
        forall j | 0 <= j < |head| ensures head[j] != '\n' {
          if j >= 2 { assert head[j] == title[j - 2]; }
        }
      }
      var rest := "\n\n" + content;
      assert updated == head + rest;
      SplitAfterPrefix(head, rest, Is('\n'));
      assert Split(rest, Is('\n'))[0] == [];
      assert after[0] == head;
      assert FirstHeadingAt(after, 0);
      assert after[0][2..] == title;
    }
  }

  // --------------------------------------------------------------- listing

  /** The note `GET /api/memories` builds for one file. */
  function Describe(filename: string, content: string): Note
  {
    Note(filename, TitleOf(filename, content), content, CategoryOf(filename), filename, filename)
  }

  /** The notes built for `names`, in order; a name whose file cannot be read is skipped. */
  function Listed(names: seq<string>, files: map<string, string>): seq<Note>
  {
    if names == [] then []
    else
      var last := names[|names| - 1];
      Listed(names[..|names| - 1], files) + (if last in files then [Describe(last, files[last])] else [])
  }

  /**
   * Every listed note comes from a readable file of the listing, carries that
   * file's name as id and source, and its content; every readable name of the
   * listing is listed.
   */
  lemma {:induction false} ListedNotes(names: seq<string>, files: map<string, string>)
    ensures var notes := Listed(names, files);
      && |notes| <= |names|
      && (forall n :: n in notes ==>
            && n.filename in names && n.filename in files
            && n == Describe(n.filename, files[n.filename]))
      && (forall name :: name in names && name in files ==> Describe(name, files[name]) in notes)
  {
    if names != [] {
      var init := names[..|names| - 1];
      ListedNotes(init, files);
      assert names == init + [names[|names| - 1]];
    }
  }

  // ------------------------------------------------------------ the folder

  /** The note folder and the handlers that change it. */
  class NoteFolder {
    /** The files of the folder, by name. */
    var files: map<string, string>

    constructor (initial: map<string, string>)
      ensures files == initial
    {
      files := initial;
    }

    /** `POST /api/save-memory`: both fields are required; the file is written under its sanitised name. */
    method SaveMemory(filename: Option<string>, content: Option<string>) returns (reply: Reply)
      modifies this
      ensures !Given(filename) || !Given(content) ==> reply == Error(400, MissingFields) && files == old(files)
      ensures Given(filename) && Given(content) ==>
        && reply == Ok(SafeFilename(filename.value))
        && files == old(files)[SafeFilename(filename.value) := content.value]
    {
      if !Given(filename) || !Given(content) {
        return Error(400, MissingFields);
      }
      var safe := SafeFilename(filename.value);
      files := files[safe := content.value];
      reply := Ok(safe);
    }

    /**
     * `GET /api/memories`: walks the `.md` names of the directory listing in
     * order and pushes one note per readable file.
     */
    method ListMemories(listing: seq<string>) returns (notes: seq<Note>)
      ensures notes == Listed(Seqs.Filter(listing, IsMarkdownName), files)
    {
      var mdFiles := Seqs.Filter(listing, IsMarkdownName);
      notes := [];
      for i := 0 to |mdFiles|
        invariant notes == Listed(mdFiles[..i], files)
      {
        var filename := mdFiles[i];
        assert mdFiles[..i + 1][..i] == mdFiles[..i];
        if filename in files {
          notes := notes + [Describe(filename, files[filename])];
        }
      }
      assert mdFiles[..|mdFiles|] == mdFiles;
    }

    /**
     * `PUT /api/memories/:filename`: 400 without a name or content, 404 when the
     * file does not exist, otherwise the file is overwritten with the updated
     * content.
     */
    method UpdateMemory(filename: string, title: Option<string>, content: Option<string>) returns (reply: Reply)
      modifies this
      ensures filename == [] || !Given(content) ==> reply == Error(400, MissingFields) && files == old(files)
      ensures filename != [] && Given(content) && filename !in old(files) ==>
        reply == Error(404, NoSuchFile) && files == old(files)
      ensures filename != [] && Given(content) && filename in old(files) ==>
        && reply == Ok(filename)
        && files == old(files)[filename := UpdatedContent(content.value, title)]
    {
      if filename == [] || !Given(content) {
        return Error(400, MissingFields);
      }
      if filename !in files {
        return Error(404, NoSuchFile);
      }
      files := files[filename := UpdatedContent(content.value, title)];
      reply := Ok(filename);
    }

    /** `DELETE /api/memories/:filename`: 404 when the file does not exist, otherwise it is removed. */
    method DeleteMemory(filename: string) returns (reply: Reply)
      modifies this
      ensures filename !in old(files) ==> reply == Error(404, NoSuchFile) && files == old(files)
      ensures filename in old(files) ==> reply == Ok(filename) && files == old(files) - {filename}
    {
      if filename !in files {
        return Error(404, NoSuchFile);
      }
      files := files - {filename};
      reply := Ok(filename);
    }
  }
}

=== FILE: SearchServer.dfy ===
/**
 * The search tool server: two tools, a web search that scrapes a result
 * page and a page fetch that reduces a page to its plain text.
 */
module SearchServer {
  import opened Wrappers
  import opened JsText
  import Seqs

  /** The outcome of an HTTP fetch: the parsed payload, or the error message. */
  datatype Fetch<T> = Fetched(payload: T) | FetchFailed(message: string)

  /** One `.result` element of the search page: its title link's text and `href`, and its snippet text. */
  datatype Scraped = Scraped(titleText: string, href: Option<string>, snippetText: string)

  datatype SearchResult = SearchResult(title: string, url: string, snippet: string)

  /** The JSON document the search tool returns; an absent query stays absent. */
  datatype SearchReport = SearchReport(query: Option<string>, results: seq<SearchResult>, totalFound: int)

  /** The JSON document the page tool returns. */
  datatype PageReport = PageReport(url: string, title: string, content: string, length: int)

  /** A tool's reply: a report, or an error text flagged `isError`. */
  datatype ToolReply = Searched(report: SearchReport) | Page(page: PageReport) | ToolError(text: string)

  /** The tools a call can name; any other name is rejected with an error. */
  datatype Tool = WebSearch | GetWebpage | Unknown(error: string)

  const DefaultResults: int := 5
  const MaxContent: nat := 5000

  /** The switch on the requested tool name. */
  function Dispatch(name: string): (t: Tool)
    ensures t == WebSearch <==> name == "web_search"
    ensures t == GetWebpage <==> name == "get_webpage"
    ensures t.Unknown? ==> t.error == "Unknown tool: " + name
  {
    match name
    case "web_search" => WebSearch
    case "get_webpage" => GetWebpage
    case _ => Unknown("Unknown tool: " + name)
  }

  // ---------------------------------------------------------------------------
  // Web search
  // ---------------------------------------------------------------------------

  /** A protocol-relative link gets the `https:` scheme; a link that already starts with `http` is kept. */
  function AbsoluteUrl(href: string): (url: string)
    ensures StartsWith(url, "http")
    ensures StartsWith(href, "http") ==> url == href
    ensures !StartsWith(href, "http") ==> url == "https:" + href
  {
    if StartsWith(href, "http") then href else "https:" + href
  }

  /** The result an element yields: only one with a non-empty trimmed title and a non-empty link counts. */
  function ResultOf(e: Scraped): (r: Option<SearchResult>)
    ensures r.Some? <==> Trim(e.titleText) != [] && e.href.Some? && e.href.value != []
    ensures r.Some? ==> r.value == SearchResult(Trim(e.titleText), AbsoluteUrl(e.href.value), Trim(e.snippetText))
  {
    var title := Trim(e.titleText);
    if title != [] && e.href.Some? && e.href.value != [] then
      Some(SearchResult(title, AbsoluteUrl(e.href.value), Trim(e.snippetText)))
    else None
  }

  /** `results.push(...)` for an element that yields a result; nothing otherwise. */
  function Pushed(r: Option<SearchResult>): (rs: seq<SearchResult>)
    ensures |rs| <= 1
    ensures r.Some? ==> rs == [r.value]
  {
    if r.Some? then [r.value] else []
  }

  /** What every reported result has: a title and an absolute link. */
  predicate Reportable(r: SearchResult)
  {
    r.title != [] && StartsWith(r.url, "http")
  }

  /** The results pushed while walking the elements in order. */
  function Results(entries: seq<Scraped>): (rs: seq<SearchResult>)
    ensures |rs| <= |entries|
    ensures forall i :: 0 <= i < |rs| ==> Reportable(rs[i])
  {
    if entries == [] then []
    else
      var init := Results(entries[..|entries| - 1]);
      var last := Pushed(ResultOf(entries[|entries| - 1]));
      assert forall i :: 0 <= i < |last| ==> Reportable(last[i]) by {
        var r := ResultOf(entries[|entries| - 1]);
        assert r.Some? ==> Reportable(r.value);
      }
      ReportableConcat(init, last);
      init + last
  }

  lemma ReportableConcat(init: seq<SearchResult>, last: seq<SearchResult>)
    requires forall i :: 0 <= i < |init| ==> Reportable(init[i])
    requires forall i :: 0 <= i < |last| ==> Reportable(last[i])
    ensures forall i :: 0 <= i < |init + last| ==> Reportable((init + last)[i])
  {
    forall i | 0 <= i < |init + last| ensures Reportable((init + last)[i]) {
      if i < |init| { assert (init + last)[i] == init[i]; }
      else { assert (init + last)[i] == last[i - |init|]; }
    }
  }

  /** One more element adds its result, if it yields one, at the end. */
  lemma ResultsSnoc(init: seq<Scraped>, e: Scraped)
    ensures Results(init + [e]) == Results(init) + Pushed(ResultOf(e))
  {
    var xs := init + [e];
    assert xs[..|xs| - 1] == init && xs[|xs| - 1] == e;
  }

  /** The walk over two runs of elements reports the first run's results, then the second's. */
  lemma {:induction false} ResultsAppend(a: seq<Scraped>, b: seq<Scraped>)
    ensures Results(a + b) == Results(a) + Results(b)
    decreases |b|
  {
    if b == [] {
      assert a + b == a;
    } else {
      var init, e := b[..|b| - 1], b[|b| - 1];
      SnocSplit(a, b);
      ResultsSnoc(a + init, e);
      ResultsSnoc(init, e);
      ResultsAppend(a, init);
      calc {
        Results(a + b);
        Results(a + init) + Pushed(ResultOf(e));
        (Results(a) + Results(init)) + Pushed(ResultOf(e));
        { Seqs.AppendAssoc(Results(a), Results(init), Pushed(ResultOf(e))); }
        Results(a) + (Results(init) + Pushed(ResultOf(e)));
        Results(a) + Results(b);
      }
    }
  }

  lemma SnocSplit<T>(a: seq<T>, b: seq<T>)
    requires b != []
    ensures b == b[..|b| - 1] + [b[|b| - 1]]
    ensures a + b == (a + b[..|b| - 1]) + [b[|b| - 1]]
  {
  }

  /** Every reported result is the result of one of the elements. */
  lemma {:induction false} ResultsSound(entries: seq<Scraped>, r: SearchResult)
    requires r in Results(entries)
    ensures exists e :: e in entries && ResultOf(e) == Some(r)
    decreases |entries|
  {
    var init, e := entries[..|entries| - 1], entries[|entries| - 1];
    if r in Results(init) {
      ResultsSound(init, r);
      var e' :| e' in init && ResultOf(e') == Some(r);
      assert e' in entries;
    } else {
      assert r in Pushed(ResultOf(e));
    }
  }

  /** Elements that all carry a title and a link give one result each. */
  lemma {:induction false} ResultsOfComplete(entries: seq<Scraped>)
    requires forall i :: 0 <= i < |entries| ==> ResultOf(entries[i]).Some?
    ensures |Results(entries)| == |entries|
  {
    if entries != [] {
      var init := entries[..|entries| - 1];
      assert forall i :: 0 <= i < |init| ==> init[i] == entries[i];
      ResultsOfComplete(init);
    }
  }

  /**
   * The `num_results` limit: `slice(0, n)`, with 5 when the argument is
   * absent. The elements kept are always the first ones, in order; a
   * negative `n` drops that many from the end.
   */
  function Limited(entries: seq<Scraped>, numResults: Option<int>): (r: seq<Scraped>)
    ensures r <= entries
    ensures numResults.Some? && 0 <= numResults.value ==>
      r == entries[..if numResults.value < |entries| then numResults.value else |entries|]
    ensures numResults.Some? && numResults.value < 0 ==>
      r == entries[..if |entries| + numResults.value < 0 then 0 else |entries| + numResults.value]
    ensures numResults.None? ==> r == entries[..if |entries| < DefaultResults then |entries| else DefaultResults]
  {
    var n := numResults.GetOr(DefaultResults);
    Seqs.SlicePrefix(entries, if n >= 0 then n else 0);
    Seqs.Slice(entries, 0, n)
  }

  /** The walk over the limited elements, pushing each element's result. */
  method CollectResults(entries: seq<Scraped>) returns (results: seq<SearchResult>)
    ensures results == Results(entries)
  {
    results := [];
    for i := 0 to |entries|
      invariant results == Results(entries[..i])
    {
      assert entries[..i + 1][..i] == entries[..i];
      var r := ResultOf(entries[i]);
      if r.Some? {
        results := results + [r.value];
      }
      assert results == Results(entries[..i]) + Pushed(r);
    }
    assert entries[..|entries|] == entries;
  }

  /**
   * `handleWebSearch`: a failed fetch becomes the error text; otherwise the
   * report lists the results of the first `num_results` elements and counts them.
   */
  method HandleWebSearch(query: Option<string>, numResults: Option<int>, fetched: Fetch<seq<Scraped>>)
    returns (reply: ToolReply)
    ensures fetched.FetchFailed? ==> reply == ToolError("搜索失败: " + fetched.message)
    ensures fetched.Fetched? ==>
      && reply.Searched?
      && reply.report.query == query
      && reply.report.results == Results(Limited(fetched.payload, numResults))
      && reply.report.totalFound == |reply.report.results|
    ensures fetched.Fetched? && numResults.None? ==> |reply.report.results| <= DefaultResults
  {
    match fetched
    case FetchFailed(message) =>
      reply := ToolError("搜索失败: " + message);
    case Fetched(entries) =>
      var results := CollectResults(Limited(entries, numResults));
      reply := Searched(SearchReport(query, results, |results|));
  }

  // ---------------------------------------------------------------------------
  // Page text
  // ---------------------------------------------------------------------------

  /** No whitespace other than the plain space, and never two whitespace characters in a row. */
  ghost predicate Collapsed(s: string)
  {
    && (forall i :: 0 <= i < |s| && IsSpace(s[i]) ==> s[i] == ' ')
    && (forall i :: 0 <= i < |s| - 1 ==> !(IsSpace(s[i]) && IsSpace(s[i + 1])))
  }

  /** `replace(/\s+/g, ' ')`: every run of whitespace becomes one space. */
  function CollapseSpace(s: string): (r: string)
    ensures |r| <= |s|
    ensures Collapsed(r)
    ensures r == [] || IsSpace(r[0]) == IsSpace(s[0])
    decreases |s|
  {
    if s == [] then []
    else if IsSpace(s[0]) then
      var rest := TrimStart(s);
      assert rest != [] ==> !IsSpace(rest[0]);
      " " + CollapseSpace(rest)
    else
      [s[0]] + CollapseSpace(s[1..])
  }

  /** A run of whitespace before a non-whitespace character (or the end) becomes exactly one space. */
  lemma CollapseRun(w: string, y: string)
    requires w != [] && forall i :: 0 <= i < |w| ==> IsSpace(w[i])
    requires y == [] || !IsSpace(y[0])
    ensures CollapseSpace(w + y) == " " + CollapseSpace(y)
  {
    var s := w + y;
    assert s[0] == w[0];
    TrimStartRun(w, y);
  }

  /** Trimming the front of a whitespace run followed by a non-whitespace start leaves that start. */
  lemma TrimStartRun(w: string, y: string)
    requires forall i :: 0 <= i < |w| ==> IsSpace(w[i])
    requires y == [] || !IsSpace(y[0])
    ensures TrimStart(w + y) == y
  {
    var s := w + y;
    var r := TrimStart(s);
    assert r == s[|w|..] == y;
  }

  /** A non-whitespace character is kept in front of the collapsed rest. */
  lemma CollapseWordChar(c: char, y: string)
    requires !IsSpace(c)
    ensures CollapseSpace([c] + y) == [c] + CollapseSpace(y)
  {
    assert ([c] + y)[0] == c && ([c] + y)[1..] == y;
  }

  /** Two characters separated by any run of whitespace keep exactly one space between them. */
  lemma CollapseBetweenWords(a: char, w: string, b: char)
    requires !IsSpace(a) && !IsSpace(b)
    requires w != [] && forall i :: 0 <= i < |w| ==> IsSpace(w[i])
    ensures CollapseSpace([a] + w + [b]) == [a] + " " + [b]
  {
    var tail := w + [b];
    assert CollapseSpace(tail) == " " + [b] by {
      CollapseWordChar(b, []);
      assert [b] + [] == [b];
      CollapseRun(w, [b]);
    }
    assert CollapseSpace([a] + w + [b]) == [a] + (" " + [b]) by {
      CollapseWordChar(a, tail);
      Seqs.AppendAssoc([a], w, [b]);
    }
    Seqs.AppendAssoc([a], " ", [b]);
  }

  predicate NotSpace(c: char)
  {
    !IsSpace(c)
  }

  /** Collapsing keeps every character that is not whitespace, in order. */
  lemma {:induction false} CollapseKeepsText(s: string)
    ensures Seqs.Filter(CollapseSpace(s), NotSpace) == Seqs.Filter(s, NotSpace)
    decreases |s|
  {
    if s != [] {
      if IsSpace(s[0]) {
        var rest := TrimStart(s);
        CollapseKeepsText(rest);
        FilterDropsSpace(" ", CollapseSpace(rest));
        FilterSkipsLeadingSpace(s);
      } else {
        CollapseKeepsText(s[1..]);
        FilterKeepsChar(s[0], CollapseSpace(s[1..]));
        FilterKeepsChar(s[0], s[1..]);
        assert s == [s[0]] + s[1..];
      }
    }
  }

  /** A run of whitespace in front does not reach the filtered text. */
  lemma FilterDropsSpace(lead: string, x: string)
    requires forall i :: 0 <= i < |lead| ==> IsSpace(lead[i])
    ensures Seqs.Filter(lead + x, NotSpace) == Seqs.Filter(x, NotSpace)
  {
    Seqs.FilterAppend(lead, x, NotSpace);
    Seqs.FilterEmptyIff(lead, NotSpace);
  }

  /** Leading whitespace does not reach the filtered text. */
  lemma FilterSkipsLeadingSpace(s: string)
    ensures Seqs.Filter(TrimStart(s), NotSpace) == Seqs.Filter(s, NotSpace)
  {
    var rest := TrimStart(s);
    var lead := s[..|s| - |rest|];
    assert s == lead + rest;
    FilterDropsSpace(lead, rest);
  }

  /** A character that is not whitespace reaches the filtered text. */
  lemma FilterKeepsChar(c: char, x: string)
    requires !IsSpace(c)
    ensures Seqs.Filter([c] + x, NotSpace) == [c] + Seqs.Filter(x, NotSpace)
  {
    assert ([c] + x)[0] == c && ([c] + x)[1..] == x;
  }

  /** Text that is already collapsed is left as it is. */
  lemma {:induction false} CollapseSpaceKeepsCollapsed(s: string)
    requires Collapsed(s)
    ensures CollapseSpace(s) == s
    decreases |s|
  {
    if s != [] {
      assert Collapsed(s[1..]);
      CollapseSpaceKeepsCollapsed(s[1..]);
      if IsSpace(s[0]) {
        assert |s| > 1 ==> !IsSpace(s[1]);
        assert TrimStart(s) == s[1..] by {
          assert TrimStart(s) == TrimStart(s[1..]);
          assert s[1..] == [] || !IsSpace(s[1..][0]);
        }
      }
      assert s == [s[0]] + s[1..];
    }
  }

  /** Collapsing twice is collapsing once. */
  lemma CollapseSpaceIdempotent(s: string)
    ensures CollapseSpace(CollapseSpace(s)) == CollapseSpace(s)
  {
    CollapseSpaceKeepsCollapsed(CollapseSpace(s));
  }

  /** Infixes of collapsed text are collapsed. */
  lemma CollapsedInfix(s: string, i: nat, j: nat)
    requires Collapsed(s) && i <= j <= |s|
    ensures Collapsed(s[i..j])
  {
    var t := s[i..j];
    assert forall k :: 0 <= k < |t| ==> t[k] == s[i + k];
  }

  /** `text().replace(/\s+/g, ' ').trim().substring(0, 5000)`. */
  function PageContent(bodyText: string): (content: string)
    ensures |content| <= MaxContent
    ensures Collapsed(content)
    ensures content == [] || !IsSpace(content[0])
    ensures content == [] <==> forall i :: 0 <= i < |bodyText| ==> IsSpace(bodyText[i])
    ensures content <= Trim(CollapseSpace(bodyText))
    ensures |Trim(CollapseSpace(bodyText))| <= MaxContent ==> content == Trim(CollapseSpace(bodyText))
    ensures |content| == if |Trim(CollapseSpace(bodyText))| < MaxContent then |Trim(CollapseSpace(bodyText))| else MaxContent
  {
    var trimmed := Trim(CollapseSpace(bodyText));
    TrimCollapsed(CollapseSpace(bodyText));
    TrimCollapseEmptyIff(bodyText);
    var n := if |trimmed| < MaxContent then |trimmed| else MaxContent;
    CollapsedInfix(trimmed, 0, n);
    assert n == |trimmed| ==> trimmed[..n] == trimmed;
    trimmed[..n]
  }

  /** Trimming collapsed text keeps it collapsed. */
  lemma TrimCollapsed(s: string)
    requires Collapsed(s)
    ensures Collapsed(Trim(s))
  {
    var a := TrimStart(s);
    CollapsedSuffix(s, a);
    CollapsedPrefix(a, TrimEnd(a));
  }

  lemma CollapsedSuffix(s: string, a: string)
    requires Collapsed(s) && |a| <= |s| && a == s[|s| - |a|..]
    ensures Collapsed(a)
  {
    assert a == s[|s| - |a|..|s|];
    CollapsedInfix(s, |s| - |a|, |s|);
  }

  lemma CollapsedPrefix(a: string, t: string)
    requires Collapsed(a) && |t| <= |a| && t == a[..|t|]
    ensures Collapsed(t)
  {
    assert t == a[0..|t|];
    CollapsedInfix(a, 0, |t|);
  }

  /** The trimmed, collapsed text is empty exactly when the original is all whitespace. */
  lemma TrimCollapseEmptyIff(s: string)
    ensures Trim(CollapseSpace(s)) == [] <==> forall i :: 0 <= i < |s| ==> IsSpace(s[i])
  {
    CollapseAllSpace(s);
    CollapsedBlank(CollapseSpace(s));
  }

  /** Collapsed text is all whitespace exactly when it is empty or one space. */
  lemma CollapsedBlank(c: string)
    requires Collapsed(c)
    ensures (forall i :: 0 <= i < |c| ==> IsSpace(c[i])) <==> c == [] || c == " "
  {
    if |c| > 1 {
      assert !(IsSpace(c[0]) && IsSpace(c[1]));
    }
    if c != [] && c != " " && |c| == 1 {
      assert c[0] != ' ';
    }
  }

  /** Collapsing leaves nothing or a single space exactly when the text is all whitespace. */
  lemma {:induction false} CollapseAllSpace(s: string)
    ensures CollapseSpace(s) == [] || CollapseSpace(s) == " " <==> forall i :: 0 <= i < |s| ==> IsSpace(s[i])
    decreases |s|
  {
    if s != [] {
      if IsSpace(s[0]) {
        var rest := TrimStart(s);
        assert rest == [] <==> forall i :: 0 <= i < |s| ==> IsSpace(s[i]);
        if rest != [] {
          assert CollapseSpace(rest)[0] == rest[0];
        }
      } else {
        assert CollapseSpace(s)[0] == s[0];
      }
    }
  }

  /**
   * `handleGetWebpage`: a failed fetch becomes the error text; otherwise the
   * report carries the trimmed title, the page text reduced by
   * `PageContent`, and that text's length.
   */
  function HandleGetWebpage(url: string, fetched: Fetch<(string, string)>): (reply: ToolReply)
    ensures fetched.FetchFailed? ==> reply == ToolError("获取网页失败: " + fetched.message)
    ensures fetched.Fetched? ==>
      && reply.Page? && reply.page.url == url
      && reply.page.title == Trim(fetched.payload.0)
      && reply.page.content == PageContent(fetched.payload.1)
      && reply.page.length == |reply.page.content| <= MaxContent
  {
    match fetched
    case FetchFailed(message) => ToolError("获取网页失败: " + message)
    case Fetched((titleText, bodyText)) =>
      var content := PageContent(bodyText);
      Page(PageReport(url, Trim(titleText), content, |content|))
  }
}

=== FILE: SensitiveWords.dfy ===
/**
 * The sensitive-word check of the instruction form: a fixed dictionary of
 * words that trip content filters, each with a neutral wording to use
 * instead; detection over the form's text fields and a one-click replacement.
 */
module SensitiveWords {
  import opened Wrappers
  import opened JsText
  import Seqs

  /** A dictionary entry: the word and the wording suggested in its place. */
  datatype Rule = Rule(word: string, suggestion: string)

  /** A detection in the form: the entry and the field it was found in. */
  datatype Hit = Hit(word: string, suggestion: string, field: string)

  /** The dictionary, in its declared order. */
  const Dictionary: seq<Rule> := [
    Rule("心理咨询", "心理分析工具"),
    Rule("心理治疗", "心理数据处理"),
    Rule("心理医生", "心理数据专家"),
    Rule("精神科", "jing神ke（已转换）"),
    Rule("抑郁症", "情绪低落分析"),
    Rule("焦虑症", "紧张情绪评估"),
    Rule("心理疾病", "心理状态异常"),
    Rule("心理障碍", "心理功能评估"),
    Rule("精神病", "jing神bing（已转换）"),
    Rule("自杀", "zi杀（已转换）"),
    Rule("自残", "zi残（已转换）"),
    Rule("法律咨询", "法律信息查询"),
    Rule("律师", "法律顾问"),
    Rule("起诉", "法律程序"),
    Rule("诉讼", "法律纠纷处理"),
    Rule("投资建议", "投资信息分析"),
    Rule("股票推荐", "股票数据分析"),
    Rule("理财规划", "财务数据整理"),
    Rule("贷款咨询", "贷款信息查询"),
    Rule("医疗诊断", "健康数据分析"),
    Rule("疾病诊断", "症状信息整理"),
    Rule("药物推荐", "药物信息查询"),
    Rule("治疗方案", "康复数据分析")
  ]

  /** The characters that would make a pattern mean more than its literal text. */
  predicate IsRegexSyntax(c: char)
  {
    c in "\\^$.|?*+()[]{}/"
  }

  /** The dictionary has 23 entries, each word at least two characters long. */
  lemma DictionaryWords()
    ensures |Dictionary| == 23
    ensures forall i :: 0 <= i < |Dictionary| ==> |Dictionary[i].word| >= 2
  {
  }

  /** A character of the CJK Unified Ideographs block. */
  predicate IsHan(c: char)
  {
    '\U{4E00}' <= c <= '\U{9FFF}'
  }

  /** Every word is written in Chinese characters only. */
  lemma DictionaryWordsAreHan()
    ensures forall i, j :: 0 <= i < |Dictionary| && 0 <= j < |Dictionary[i].word| ==> IsHan(Dictionary[i].word[j])
  {
  }

  /** No word holds pattern syntax, so a global pattern built from a word matches exactly the word's occurrences. */
  lemma DictionaryWordsAreLiteral()
    ensures forall i, j :: 0 <= i < |Dictionary| && 0 <= j < |Dictionary[i].word| ==> !IsRegexSyntax(Dictionary[i].word[j])
  {
    DictionaryWordsAreHan();
    forall c | IsHan(c) ensures !IsRegexSyntax(c) {
      assert forall k :: 0 <= k < |"\\^$.|?*+()[]{}/"| ==> "\\^$.|?*+()[]{}/"[k] < '\U{4E00}';
    }
  }

  /** No suggestion holds `$`, so the replacement text of each global replace is inserted as written, with no `$&` or `$1` expansion. */
  lemma SuggestionsAreLiteral()
    ensures forall i, j :: 0 <= i < |Dictionary| && 0 <= j < |Dictionary[i].suggestion| ==> Dictionary[i].suggestion[j] != '$'
  {
  }

  /** The words are pairwise different (they are the keys of one object). */
  lemma DictionaryWordsDistinct()
    ensures forall i, j :: 0 <= i < j < |Dictionary| ==> Dictionary[i].word != Dictionary[j].word
  {
  }

  /** `rule => text.includes(rule.word)`. */
  function Mentioned(text: string): (p: Rule -> bool)
    ensures forall rule :: p(rule) <==> Contains(text, rule.word)
  {
    (rule: Rule) => Contains(text, rule.word)
  }

  /** The entries whose word occurs in the text, in dictionary order. */
  function Detected(text: string): seq<Rule>
  {
    Seqs.Filter(Dictionary, Mentioned(text))
  }

  /** An entry is detected exactly when it belongs to the dictionary and its word occurs in the text. */
  lemma DetectedIff(text: string, rule: Rule)
    ensures rule in Detected(text) <==> rule in Dictionary && Contains(text, rule.word)
  {
    Seqs.FilterMembership(Dictionary, Mentioned(text), rule);
  }

  /** Detections come in dictionary order, and a text without any of the words yields none. */
  lemma DetectedInOrder(text: string)
    ensures Seqs.IsSubsequence(Detected(text), Dictionary)
    ensures Detected(text) == [] <==> forall i :: 0 <= i < |Dictionary| ==> !Contains(text, Dictionary[i].word)
  {
    Seqs.FilterIsSubsequence(Dictionary, Mentioned(text));
    Seqs.FilterEmptyIff(Dictionary, Mentioned(text));
  }

  /** `detectSensitiveWords`: walks the dictionary and collects the entries whose word occurs in the text. */
  method DetectSensitiveWords(text: string) returns (detected: seq<Rule>)
    ensures detected == Detected(text)
  {
    detected := CollectMentioned(Dictionary, text);
  }

  /** The walk over the entries of a dictionary, in order. */
  method CollectMentioned(dictionary: seq<Rule>, text: string) returns (detected: seq<Rule>)
    ensures detected == Seqs.Filter(dictionary, Mentioned(text))
  {
    detected := [];
    for i := 0 to |dictionary|
      invariant detected == Seqs.Filter(dictionary[..i], Mentioned(text))
    {
      var rule := dictionary[i];
      Seqs.FilterPrefixStep(dictionary, Mentioned(text), i);
      if Contains(text, rule.word) {
        detected := detected + [rule];
      }
    }
    assert dictionary[..|dictionary|] == dictionary;
  }

  // ---------------------------------------------------------------------------
  // The form
  // ---------------------------------------------------------------------------

  /** The fields of the instruction form that are checked, in order. */
  const TextFields: seq<string> := ["name", "description", "conversationFlow", "evaluationCriteria"]

  /** `allValues[field]` is truthy: present and not empty. */
  predicate Truthy(values: map<string, string>, field: string)
  {
    field in values && values[field] != []
  }

  /** `detected.map(d => ({ ...d, field }))`. */
  function Tagged(rules: seq<Rule>, field: string): (r: seq<Hit>)
    ensures |r| == |rules|
    ensures forall i :: 0 <= i < |r| ==> r[i] == Hit(rules[i].word, rules[i].suggestion, field)
  {
    Seqs.Map(rules, (rule: Rule) => Hit(rule.word, rule.suggestion, field))
  }

  /** The detections of the given fields, field by field. */
  function Hits(values: map<string, string>, fields: seq<string>): seq<Hit>
  {
    if fields == [] then []
    else
      var field := fields[|fields| - 1];
      Hits(values, fields[..|fields| - 1])
        + (if Truthy(values, field) then Tagged(Detected(values[field]), field) else [])
  }

  /** One more field adds that field's detections at the end. */
  lemma HitsStep(values: map<string, string>, fields: seq<string>, i: nat)
    requires i < |fields|
    ensures Hits(values, fields[..i + 1]) == Hits(values, fields[..i])
      + (if Truthy(values, fields[i]) then Tagged(Detected(values[fields[i]]), fields[i]) else [])
  {
    assert fields[..i + 1][..i] == fields[..i];
  }

  /** A detection names a checked, filled field and a dictionary entry whose word occurs in that field, and conversely. */
  lemma {:induction false} HitsIff(values: map<string, string>, fields: seq<string>, h: Hit)
    ensures h in Hits(values, fields) <==>
      && h.field in fields && Truthy(values, h.field)
      && Rule(h.word, h.suggestion) in Dictionary && Contains(values[h.field], h.word)
  {
    if fields != [] {
      var init, field := fields[..|fields| - 1], fields[|fields| - 1];
      HitsIff(values, init, h);
      assert fields == init + [field];
      if Truthy(values, field) {
        TaggedIff(Detected(values[field]), field, h);
        DetectedIff(values[field], Rule(h.word, h.suggestion));
      }
    }
  }

  /** A tagged detection is one of the rules, with the field attached. */
  lemma TaggedIff(rules: seq<Rule>, field: string, h: Hit)
    ensures h in Tagged(rules, field) <==> h.field == field && Rule(h.word, h.suggestion) in rules
  {
    var tagged := Tagged(rules, field);
    var rule := Rule(h.word, h.suggestion);
    if h in tagged {
      var i :| 0 <= i < |tagged| && tagged[i] == h;
      assert rules[i] == rule;
    }
    if h.field == field && rule in rules {
      var i :| 0 <= i < |rules| && rules[i] == rule;
      assert tagged[i] == h;
    }
  }

  /** Every detection carries a word of the dictionary, which is never empty. */
  lemma HitsHaveWords(values: map<string, string>, fields: seq<string>)
    ensures forall i :: 0 <= i < |Hits(values, fields)| ==> Hits(values, fields)[i].word != []
  {
    DictionaryWords();
    forall i | 0 <= i < |Hits(values, fields)|
      ensures Hits(values, fields)[i].word != []
    {
      var h := Hits(values, fields)[i];
      HitsIff(values, fields, h);
    }
  }

  predicate AllWordsNonEmpty(hits: seq<Hit>)
  {
    forall i :: 0 <= i < |hits| ==> hits[i].word != []
  }

  /**
   * The replacement pass: for each detection, in order, whose word still
   * occurs in its field, every occurrence is replaced by the suggestion.
   * The flag says whether any replacement took place.
   */
  function Replacement(values: map<string, string>, hits: seq<Hit>): (r: (map<string, string>, bool))
    requires AllWordsNonEmpty(hits)
    ensures r.0.Keys == values.Keys
    ensures !r.1 ==> r.0 == values
  {
    if hits == [] then (values, false)
    else
      var prev := Replacement(values, hits[..|hits| - 1]);
      var h := hits[|hits| - 1];
      if h.field in prev.0 && Contains(prev.0[h.field], h.word) then
        (prev.0[h.field := ReplaceAll(prev.0[h.field], h.word, h.suggestion)], true)
      else prev
  }

  /**
   * The last detection: when its word still occurs in its field, every
   * occurrence there is replaced by the suggestion, the flag is raised and
   * every other field is kept; otherwise the pass before it stands.
   */
  lemma ReplacementStep(values: map<string, string>, hits: seq<Hit>)
    requires AllWordsNonEmpty(hits) && hits != []
    ensures var prev := Replacement(values, hits[..|hits| - 1]);
      var h := hits[|hits| - 1];
      var r := Replacement(values, hits);
      && (h.field in prev.0 && Contains(prev.0[h.field], h.word) ==>
            && r.1
            && r.0[h.field] == ReplaceAll(prev.0[h.field], h.word, h.suggestion)
            && forall f :: f in r.0 && f != h.field ==> r.0[f] == prev.0[f])
      && (!(h.field in prev.0 && Contains(prev.0[h.field], h.word)) ==> r == prev)
      && (r.1 <==> prev.1 || (h.field in prev.0 && Contains(prev.0[h.field], h.word)))
  {
  }

  /**
   * A single detection whose word occurs in its field: every occurrence there
   * is replaced by the suggestion (`ReplaceAllAt` says how), and the flag is raised.
   */
  lemma ReplacementOfOne(values: map<string, string>, h: Hit)
    requires h.word != [] && h.field in values && Contains(values[h.field], h.word)
    ensures Replacement(values, [h]) == (values[h.field := ReplaceAll(values[h.field], h.word, h.suggestion)], true)
  {
    assert [h][..0] == [];
    assert Replacement(values, []) == (values, false);
  }

  /** Fields that no detection names are left as they were. */
  lemma {:induction false} ReplacementKeepsOtherFields(values: map<string, string>, hits: seq<Hit>, field: string)
    requires AllWordsNonEmpty(hits)
    requires forall i :: 0 <= i < |hits| ==> hits[i].field != field
    requires field in values
    ensures Replacement(values, hits).0[field] == values[field]
  {
    if hits != [] {
      ReplacementKeepsOtherFields(values, hits[..|hits| - 1], field);
    }
  }

  /** The state of the instruction form: its values and the detections shown under it. */
  class InstructionForm {
    var values: map<string, string>
    var detected: seq<Hit>

    ghost predicate Valid()
      reads this
    {
      AllWordsNonEmpty(detected)
    }

    constructor (values: map<string, string>)
      ensures this.values == values && detected == [] && Valid()
    {
      this.values := values;
      detected := [];
    }

    /** `checkSensitiveWords`: the detections of the four text fields, field by field, replace the shown ones. */
    method CheckSensitiveWords(allValues: map<string, string>)
      modifies this
      ensures detected == Hits(allValues, TextFields)
      ensures values == old(values)
      ensures Valid()
    {
      var all: seq<Hit> := [];
      for i := 0 to |TextFields|
        invariant all == Hits(allValues, TextFields[..i])
        invariant values == old(values)
      {
        var field := TextFields[i];
        HitsStep(allValues, TextFields, i);
        if Truthy(allValues, field) {
          var rules := DetectSensitiveWords(allValues[field]);
          all := all + Tagged(rules, field);
        }
      }
      assert TextFields[..|TextFields|] == TextFields;
      detected := all;
      HitsHaveWords(allValues, TextFields);
    }

    /** The form's values change: the form takes them and checks them again. */
    method OnValuesChange(allValues: map<string, string>)
      modifies this
      ensures values == allValues
      ensures detected == Hits(allValues, TextFields)
      ensures Valid()
    {
      values := allValues;
      CheckSensitiveWords(allValues);
    }

    /**
     * `replaceSensitiveWords`: applies the shown detections to the current
     * values; only when something was replaced are the values written back
     * and checked again.
     */
    method ReplaceSensitiveWords()
      requires Valid()
      modifies this
      ensures Valid()
      ensures Replacement(old(values), old(detected)).1 ==>
        && values == Replacement(old(values), old(detected)).0
        && detected == Hits(values, TextFields)
      ensures !Replacement(old(values), old(detected)).1 ==> values == old(values) && detected == old(detected)
    {
      var current := values;
      var hasReplaced := false;
      for i := 0 to |detected|
        invariant (current, hasReplaced) == Replacement(values, detected[..i])
      {
        var item := detected[i];
        assert detected[..i + 1][..i] == detected[..i];
        if item.field in current && Contains(current[item.field], item.word) {
          current := current[item.field := ReplaceAll(current[item.field], item.word, item.suggestion)];
          hasReplaced := true;
        }
      }
      assert detected[..|detected|] == detected;
      if hasReplaced {
        values := current;
        CheckSensitiveWords(current);
      }
    }
  }
}

=== FILE: Seqs.dfy ===
/**
 * Generic sequence operations that mirror `Array.prototype.filter`, `map`,
 * `findIndex` and `slice`.
 */
module Seqs {
  import opened Wrappers

  /** `xs.filter(p)`: the elements satisfying `p`, in their original order. */
  function Filter<T>(xs: seq<T>, p: T -> bool): (r: seq<T>)
    ensures |r| <= |xs|
    ensures forall i :: 0 <= i < |r| ==> p(r[i]) && r[i] in xs
  {
    if xs == [] then []
    else if p(xs[0]) then [xs[0]] + Filter(xs[1..], p)
    else Filter(xs[1..], p)
  }

  /** `xs.map(f)`. */
  function Map<T, U>(xs: seq<T>, f: T -> U): (r: seq<U>)
    ensures |r| == |xs|
    ensures forall i :: 0 <= i < |xs| ==> r[i] == f(xs[i])
  {
    if xs == [] then [] else [f(xs[0])] + Map(xs[1..], f)
  }

  /** `xs` can be obtained from `ys` by deleting elements, keeping the rest in order. */
  predicate IsSubsequence<T(==)>(xs: seq<T>, ys: seq<T>)
  {
    if xs == [] then true
    else if ys == [] then false
    else if xs[0] == ys[0] then IsSubsequence(xs[1..], ys[1..])
    else IsSubsequence(xs, ys[1..])
  }

  /** An element is kept by the filter exactly when it occurs in the input and satisfies `p`. */
  lemma {:induction false} FilterMembership<T>(xs: seq<T>, p: T -> bool, x: T)
    ensures x in Filter(xs, p) <==> x in xs && p(x)
  {
    if xs != [] {
      FilterMembership(xs[1..], p, x);
      assert xs == [xs[0]] + xs[1..];
    }
  }

  /** The filter keeps every copy of an element satisfying `p` and no copy of any other. */
  lemma {:induction false} FilterMultiplicity<T>(xs: seq<T>, p: T -> bool, x: T)
    ensures multiset(Filter(xs, p))[x] == if p(x) then multiset(xs)[x] else 0
  {
    if xs != [] {
      var rest := Filter(xs[1..], p);
      FilterMultiplicity(xs[1..], p, x);
      assert xs == [xs[0]] + xs[1..];
      assert multiset(xs) == multiset([xs[0]]) + multiset(xs[1..]);
      if p(xs[0]) {
        assert multiset(Filter(xs, p)) == multiset([xs[0]]) + multiset(rest);
      }
    }
  }

  /** Filtering keeps the surviving elements in their original relative order. */
  lemma {:induction false} FilterIsSubsequence<T>(xs: seq<T>, p: T -> bool)
    ensures IsSubsequence(Filter(xs, p), xs)
  {
    if xs != [] {
      FilterIsSubsequence(xs[1..], p);
      if p(xs[0]) {
        assert Filter(xs, p)[1..] == Filter(xs[1..], p);
      } else {
        SubsequenceOfTail(Filter(xs, p), xs);
      }
    }
  }

  /** A subsequence of the tail of `ys` is a subsequence of `ys`. */
  lemma {:induction false} SubsequenceOfTail<T>(xs: seq<T>, ys: seq<T>)
    requires ys != [] && IsSubsequence(xs, ys[1..])
    ensures IsSubsequence(xs, ys)
    decreases |xs| + |ys|
  {
    if xs != [] && xs[0] == ys[0] {
      SubsequenceDropHead(xs, ys[1..]);
    }
  }

  /** Dropping the head of a non-empty subsequence keeps it a subsequence. */
  lemma {:induction false} SubsequenceDropHead<T>(xs: seq<T>, ys: seq<T>)
    requires xs != [] && IsSubsequence(xs, ys)
    ensures IsSubsequence(xs[1..], ys)
    decreases |xs| + |ys|
  {
    if xs[0] == ys[0] {
      SubsequenceOfTail(xs[1..], ys);
    } else {
      SubsequenceDropHead(xs, ys[1..]);
      SubsequenceOfTail(xs[1..], ys);
    }
  }

  /** Filtering by a predicate that every element satisfies is the identity. */
  lemma {:induction false} FilterAll<T>(xs: seq<T>, p: T -> bool)
    requires forall i :: 0 <= i < |xs| ==> p(xs[i])
    ensures Filter(xs, p) == xs
  {
    if xs != [] {
      FilterAll(xs[1..], p);
    }
  }

  /** The filter's result is empty exactly when no element satisfies the predicate. */
  lemma {:induction false} FilterEmptyIff<T>(xs: seq<T>, p: T -> bool)
    ensures Filter(xs, p) == [] <==> forall i :: 0 <= i < |xs| ==> !p(xs[i])
  {
    if xs != [] {
      FilterEmptyIff(xs[1..], p);
      assert forall i :: 1 <= i < |xs| ==> xs[i] == xs[1..][i - 1];
    }
  }

  /** Filtering one more element of a prefix. */
  lemma FilterPrefixStep<T>(xs: seq<T>, p: T -> bool, i: nat)
    requires i < |xs|
    ensures Filter(xs[..i + 1], p) == Filter(xs[..i], p) + (if p(xs[i]) then [xs[i]] else [])
  {
    assert xs[..i + 1] == xs[..i] + [xs[i]];
    FilterAppend(xs[..i], [xs[i]], p);
    assert [xs[i]][1..] == [];
  }

  /** Concatenation is associative. */
  lemma AppendAssoc<T>(xs: seq<T>, ys: seq<T>, zs: seq<T>)
    ensures (xs + ys) + zs == xs + (ys + zs)
  {
  }

  /** A non-empty sequence followed by another is its head followed by the rest. */
  lemma ConsSplit<T>(xs: seq<T>, ys: seq<T>)
    requires xs != []
    ensures xs + ys == [xs[0]] + (xs[1..] + ys)
  {
    assert xs == [xs[0]] + xs[1..];
  }

  /** Filtering distributes over concatenation. */
  lemma {:induction false} FilterAppend<T>(xs: seq<T>, ys: seq<T>, p: T -> bool)
    ensures Filter(xs + ys, p) == Filter(xs, p) + Filter(ys, p)
  {
    if xs == [] {
      assert xs + ys == ys;
    } else {
      assert (xs + ys)[0] == xs[0];
      assert (xs + ys)[1..] == xs[1..] + ys;
      FilterAppend(xs[1..], ys, p);
    }
  }

  /** `xs.findIndex(p)`: the first index whose element satisfies `p`, `None` for -1. */
  function FindFirst<T>(xs: seq<T>, p: T -> bool): (r: Option<nat>)
    ensures r.Some? ==> r.value < |xs| && p(xs[r.value])
    ensures r.Some? ==> forall j :: 0 <= j < r.value ==> !p(xs[j])
    ensures r.None? ==> forall j :: 0 <= j < |xs| ==> !p(xs[j])
  {
    if xs == [] then None
    else if p(xs[0]) then Some(0)
    else
      match FindFirst(xs[1..], p)
      case None => None
      case Some(k) => Some(k + 1)
  }

  /**
   * The position `Array.prototype.slice` takes for an index argument `x` on a
   * sequence of length `len`: a negative `x` counts back from the end, and the
   * result is clamped to `0..len`.
   */
  function RelativeIndex(x: int, len: nat): (k: nat)
    ensures k <= len
    ensures 0 <= x <= len ==> k == x
    ensures -(len as int) <= x < 0 ==> k == len + x
  {
    if x < 0 then (if len + x < 0 then 0 else len + x)
    else if x < len then x
    else len
  }

  /** `xs.slice(start, end)`. */
  function Slice<T>(xs: seq<T>, start: int, end: int): (r: seq<T>)
    ensures |r| <= |xs|
  {
    var from := RelativeIndex(start, |xs|);
    var to := RelativeIndex(end, |xs|);
    if from < to then xs[from..to] else []
  }

  /** `xs.slice(0, n)` for `n >= 0` is the first `min(n, |xs|)` elements. */
  lemma SlicePrefix<T>(xs: seq<T>, n: nat)
    ensures Slice(xs, 0, n) == xs[..if n < |xs| then n else |xs|]
  {
  }

  /** `xs.slice(-n)` for `n > 0` is the last `min(n, |xs|)` elements (`slice(-0)` is the whole sequence). */
  lemma SliceSuffix<T>(xs: seq<T>, n: nat)
    requires n > 0
    ensures Slice(xs, -(n as int), |xs|) == xs[if n < |xs| then |xs| - n else 0..]
  {
  }

  /** The same, stated by the length of the result. */
  lemma SliceLast<T>(xs: seq<T>, n: nat)
    requires n > 0
    ensures var r := Slice(xs, -(n as int), |xs|);
      |r| == (if |xs| < n then |xs| else n) && r == xs[|xs| - |r|..]
  {
    SliceSuffix(xs, n);
  }
}

=== FILE: SimpleServer.dfy ===
/**
 * `server-simple.js`: the chat proxy's output cleanup and the note listing of
 * the simplified server. The external command-line tool is not modelled; what
 * its run produced is an input (`Run`).
 */
module SimpleServer {
  import opened Wrappers
  import opened JsText
  import Seqs
  import NoteServer

  // ------------------------------------------------------ the chat proxy

  /** How the spawned process ended: closed with its standard output, or failed (spawn error, 30-second timeout). */
  datatype Run = Closed(stdout: string) | Failed

  /** The answers of `POST /api/chat-with-q`. */
  datatype ChatReply =
    | Answer(response: string)
    | Error(status: int, error: string, suggestion: string)

  const EmptyMessage: string := "消息不能为空"
  const Unavailable: string := "Q CLI不可用"
  const InstallHint: string := "请确保已安装并配置Q CLI"
  /** Sent instead of an empty cleaned output. */
  const StillProcessing: string := "收到您的消息，Q CLI正在处理中..."

  const Esc: char := '\U{001B}'

  predicate IsSgrParam(c: char)
  {
    ('0' <= c <= '9') || c == ';'
  }

  /** The length of the longest prefix of `s` made of `[0-9;]`. */
  function ParamRun(s: string): (n: nat)
    ensures n <= |s|
    ensures forall i :: 0 <= i < n ==> IsSgrParam(s[i])
    ensures n == |s| || !IsSgrParam(s[n])
  {
    if s != [] && IsSgrParam(s[0]) then 1 + ParamRun(s[1..]) else 0
  }

  /** `s[..n]` is an escape, `[`, a run of `[0-9;]` and `m`: a match of `/\x1b\[[0-9;]*m/` of length `n`. */
  predicate SgrShape(s: string, n: int)
  {
    3 <= n <= |s| && s[0] == Esc && s[1] == '[' && s[n - 1] == 'm' &&
    forall i :: 2 <= i < n - 1 ==> IsSgrParam(s[i])
  }

  /**
   * The length of the match of `/\x1b\[[0-9;]*m/` at the start of `s`, if
   * there is one. The parameter run is greedy, and giving characters back
   * cannot help because a parameter character is never `m`, so there is at
   * most one match length.
   */
  function SgrAt(s: string): (r: Option<nat>)
    ensures r.Some? ==> SgrShape(s, r.value)
    ensures forall n :: SgrShape(s, n) ==> r == Some(n)
  {
    if |s| >= 2 && s[0] == Esc && s[1] == '[' then
      var n := ParamRun(s[2..]);
      assert forall k :: SgrShape(s, k) ==> k == 3 + n by {
        forall k | SgrShape(s, k)
          ensures k == 3 + n
        {
          assert !IsSgrParam(s[k - 1]);
        }
      }
      if 2 + n < |s| && s[2 + n] == 'm' then Some(3 + n) else None
    else None
  }

  /** `s.replace(/\x1b\[[0-9;]*m/g, '')`: one left-to-right pass that deletes every match. */
  function StripSgr(s: string): (r: string)
    ensures |r| <= |s|
    decreases |s|
  {
    if s == [] then []
    else
      match SgrAt(s)
      case Some(n) => StripSgr(s[n..])
      case None => [s[0]] + StripSgr(s[1..])
  }

  /** The response text after cleanup: colour sequences removed, then trimmed. */
  function CleanOutput(stdout: string): string
  {
    Trim(StripSgr(stdout))
  }

  /** Output without an escape character is only trimmed. */
  lemma {:induction false} StripSgrWithoutEsc(s: string)
    requires forall i :: 0 <= i < |s| ==> s[i] != Esc
    ensures StripSgr(s) == s
    ensures CleanOutput(s) == Trim(s)
    decreases |s|
  {
    if s != [] {
      StripSgrWithoutEsc(s[1..]);
      StripSgrPlain(s);
      assert s == [s[0]] + s[1..];
    }
  }

  /**
   * A character that starts no complete colour sequence is kept, even an
   * escape: cursor codes such as `ESC [ 2 K` stay in the text.
   */
  lemma StripSgrPlain(s: string)
    requires s != [] && forall n :: !SgrShape(s, n)
    ensures StripSgr(s) == [s[0]] + StripSgr(s[1..])
  {
    assert SgrAt(s) == None;
  }

  /** The erase-line code `ESC [ 2 K` is not a colour sequence and survives the cleanup. */
  lemma CursorCodeKept()
    ensures StripSgr([Esc, '[', '2', 'K']) == [Esc, '[', '2', 'K']
  {
    var s: string := [Esc, '[', '2', 'K'];
    var t := s[1..];
    assert StripSgr(s) == [Esc] + StripSgr(t) by {
      assert SgrAt(s) == None by {
        assert ParamRun(s[2..]) == 1 by {
          assert s[2..] == ['2'] + ['K'];
          ParamRunOver(['2'], ['K']);
        }
      }
    }
    assert StripSgr(t) == t by {
      StripSgrWithoutEsc(t);
    }
    assert [Esc] + t == s;
  }

  /** Text without escape characters survives in front of whatever follows. */
  lemma {:induction false} StripSgrPlainPrefix(text: string, rest: string)
    requires forall i :: 0 <= i < |text| ==> text[i] != Esc
    ensures StripSgr(text + rest) == text + StripSgr(rest)
    decreases |text|
  {
    if text == [] {
      assert text + rest == rest;
    } else {
      Seqs.ConsSplit(text, rest);
      StripSgrCons(text[0], text[1..] + rest);
      StripSgrPlainPrefix(text[1..], rest);
      Seqs.ConsSplit(text, StripSgr(rest));
    }
  }

  /** A character other than the escape is kept in front of the rest's cleanup. */
  lemma StripSgrCons(c: char, u: string)
    requires c != Esc
    ensures StripSgr([c] + u) == [c] + StripSgr(u)
  {
    var s := [c] + u;
    assert s[0] == c && s[1..] == u;
    StripSgrPlain(s);
  }

  /** A complete colour sequence `ESC [ params m` is deleted as a whole. */
  lemma StripSgrDropsSequence(params: string, rest: string)
    requires forall i :: 0 <= i < |params| ==> IsSgrParam(params[i])
    ensures StripSgr([Esc, '['] + params + ['m'] + rest) == StripSgr(rest)
  {
    var s := [Esc, '['] + params + ['m'] + rest;
    assert s[2..] == params + (['m'] + rest);
    ParamRunOver(params, ['m'] + rest);
    assert SgrAt(s) == Some(3 + |params|);
    assert s[3 + |params|..] == rest;
  }

  lemma {:induction false} ParamRunOver(params: string, rest: string)
    requires forall i :: 0 <= i < |params| ==> IsSgrParam(params[i])
    requires rest != [] && !IsSgrParam(rest[0])
    ensures ParamRun(params + rest) == |params|
    decreases |params|
  {
    if params != [] {
      ParamRunOver(params[1..], rest);
      assert (params + rest)[1..] == params[1..] + rest;
    } else {
      assert params + rest == rest;
    }
  }

  /** A lone reset sequence `ESC [ m`. */
  const Reset: string := [Esc, '[', 'm']

  /** An escape character in front of a reset sequence that is followed by `[m`. */
  const Nested: string := [Esc] + Reset + ['[', 'm']

  lemma ResetIsDropped()
    ensures StripSgr(Reset) == []
  {
    assert Reset == [Esc, '['] + [] + ['m'] + [];
    StripSgrDropsSequence([], []);
  }

  lemma NestedLeavesReset()
    ensures StripSgr(Nested) == Reset
  {
    var tail: string := ['[', 'm'];
    var inner := Nested[1..];
    assert StripSgr(Nested) == [Esc] + StripSgr(inner) by {
      assert SgrAt(Nested) == None by { assert Nested[1] != '['; }
    }
    assert StripSgr(inner) == tail by {
      assert inner == [Esc, '['] + [] + ['m'] + tail;
      StripSgrDropsSequence([], tail);
      StripSgrWithoutEsc(tail);
    }
    assert [Esc] + tail == Reset;
  }

  /**
   * Deletion is a single pass, so it can assemble a new sequence out of the
   * pieces around a removed one: cleaning is not idempotent.
   */
  lemma SinglePassNotIdempotent()
    ensures StripSgr(Nested) != []
    ensures StripSgr(StripSgr(Nested)) == []
  {
    NestedLeavesReset();
    ResetIsDropped();
  }

  /**
   * `POST /api/chat-with-q`: an empty or missing message is rejected with 400
   * before any process is started; a failed run gives 500; otherwise the
   * cleaned output, or the fixed notice when the cleaned output is empty.
   */
  function ChatWithQ(message: Option<string>, run: Run): (reply: ChatReply)
    ensures message.None? || message.value == [] ==> reply == Error(400, EmptyMessage, "")
    ensures NoteServer.Given(message) && run.Failed? ==> reply == Error(500, Unavailable, InstallHint)
    ensures reply.Answer? ==> reply.response != []
    ensures reply.Answer? && CleanOutput(run.stdout) != [] ==> reply.response == CleanOutput(run.stdout)
    ensures reply.Answer? && CleanOutput(run.stdout) == [] ==> reply.response == StillProcessing
    ensures reply.Answer? <==> NoteServer.Given(message) && run.Closed?
  {
    if message.None? || message.value == [] then Error(400, EmptyMessage, "")
    else
      match run
      case Failed => Error(500, Unavailable, InstallHint)
      case Closed(stdout) =>
        var cleaned := CleanOutput(stdout);
        Answer(if cleaned != [] then cleaned else StillProcessing)
  }

  // ------------------------------------------------------------- listing

  /** A line that `/^# (.+)$/m` matches: it starts with `# ` and has at least one more character. */
  predicate IsTitleLine(line: string)
  {
    StartsWith(line, "# ") && |line| > 2
  }

  /**
   * The title of the simplified listing: `content.match(/^# (.+)$/m)?.[1]`, or
   * the name with its first `.md` removed. With the `m` flag `^` matches after
   * any line terminator and `.` matches anything but one, so the match is the
   * first line (split at every line terminator) that starts with `# ` and has
   * at least one more character, and the capture is the rest of that line.
   */
  function TitleOf(filename: string, content: string): (title: string)
    ensures var lines := Split(content, IsLineTerminator);
      forall i :: FirstTitleAt(lines, i) ==> title == lines[i][2..]
    ensures var lines := Split(content, IsLineTerminator);
      (forall i :: 0 <= i < |lines| ==> !IsTitleLine(lines[i])) ==> title == NoteServer.FallbackTitle(filename)
  {
    var lines := Split(content, IsLineTerminator);
    FirstTitleFound(lines);
    match Seqs.FindFirst(lines, IsTitleLine)
    case Some(i) => lines[i][2..]
    case None => NoteServer.FallbackTitle(filename)
  }

  /** Line `i` is the first title line. */
  predicate FirstTitleAt(lines: seq<string>, i: int)
  {
    0 <= i < |lines| && IsTitleLine(lines[i]) && forall j :: 0 <= j < i ==> !IsTitleLine(lines[j])
  }

  /** The search for a title line stops at the first one. */
  lemma FirstTitleFound(lines: seq<string>)
    ensures forall i :: FirstTitleAt(lines, i) ==> Seqs.FindFirst(lines, IsTitleLine) == Some(i)
  {
  }

  /** The longest prefix of `s` without a line terminator. */
  function LineHead(s: string): (r: string)
    ensures r <= s
    ensures forall i :: 0 <= i < |r| ==> !IsLineTerminator(r[i])
    ensures |r| == |s| || IsLineTerminator(s[|r|])
  {
    if s == [] || IsLineTerminator(s[0]) then [] else [s[0]] + LineHead(s[1..])
  }

  /** `category: ` starts at index `i` and is followed by a character that ends no line. */
  predicate FieldAt(content: string, i: int)
  {
    OccursAt(content, "category: ", i) && i + 10 < |content| && !IsLineTerminator(content[i + 10])
  }

  /** Index `i` is the first where `/category: (.+)$/m` can match. */
  predicate FirstFieldAt(content: string, i: int)
  {
    FieldAt(content, i) && forall j :: 0 <= j < i ==> !FieldAt(content, j)
  }

  /** Dropping the first character shifts every candidate position by one. */
  lemma FieldTail(content: string)
    requires content != []
    ensures forall i :: 0 <= i ==> (FieldAt(content[1..], i) <==> FieldAt(content, i + 1))
    ensures forall i :: FieldAt(content[1..], i) ==> content[1..][i + 10..] == content[i + 11..]
  {
    forall i | 0 <= i
      ensures FieldAt(content[1..], i) <==> FieldAt(content, i + 1)
    {
      OccursAtTail(content, "category: ", i);
    }
  }

  /**
   * `content.match(/category: (.+)$/m)?.[1]`: at the first position where
   * `category: ` is followed by a character that ends no line, the rest of
   * that line.
   */
  function CategoryField(content: string): (r: Option<string>)
    ensures r.Some? ==> r.value != []
    ensures r.Some? ==> forall i :: 0 <= i < |r.value| ==> !IsLineTerminator(r.value[i])
    ensures r.None? <==> forall i :: 0 <= i ==> !FieldAt(content, i)
    ensures forall i :: FirstFieldAt(content, i) ==> r == Some(LineHead(content[i + 10..]))
    ensures !Contains(content, "category: ") ==> r.None?
    decreases |content|
  {
    if StartsWith(content, "category: ") && |content| > 10 && !IsLineTerminator(content[10]) then
      assert content[0..10] == "category: ";
      assert FieldAt(content, 0);
      Some(LineHead(content[10..]))
    else if content == [] then
      None
    else
      assert !FieldAt(content, 0);
      FieldTail(content);
      var r := CategoryField(content[1..]);
      assert forall i :: 1 <= i ==> (FieldAt(content, i) <==> FieldAt(content[1..], i - 1));
      assert forall i :: FirstFieldAt(content, i) ==> FirstFieldAt(content[1..], i - 1);
      r
  }

  const Uncategorised: string := "未分类"

  /**
   * The category of the simplified listing: the rest of the line after the
   * first qualifying `category: `, or `未分类` when there is none.
   */
  function CategoryOf(content: string): (category: string)
    ensures category != []
    ensures (forall i :: 0 <= i ==> !FieldAt(content, i)) ==> category == Uncategorised
    ensures forall i :: FirstFieldAt(content, i) ==> category == LineHead(content[i + 10..])
    ensures !Contains(content, "category: ") ==> category == Uncategorised
  {
    CategoryField(content).GetOr(Uncategorised)
  }

  /** A file that names its category `未分类` is listed like one that names none. */
  lemma NamedUncategorised()
    ensures CategoryField("category: 未分类").Some?
    ensures CategoryOf("category: 未分类") == CategoryOf("")
  {
    var content := "category: 未分类";
    assert content[0..10] == "category: ";
    assert FirstFieldAt(content, 0);
    assert content[10..] == Uncategorised;
    assert LineHead(Uncategorised[2..]) == Uncategorised[2..];
    assert LineHead(Uncategorised[1..]) == Uncategorised[1..];
  }

  /** The note the simplified listing builds for one file (`timestamp: Date.now()` is not modelled). */
  function Describe(filename: string, content: string): (n: NoteServer.Note)
    ensures n.id == filename && n.filename == filename && n.sourceFile == filename
    ensures n.content == content && n.category != []
    ensures !Contains(content, "category: ") ==> n.category == Uncategorised
  {
    NoteServer.Note(filename, TitleOf(filename, content), content, CategoryOf(content), filename, filename)
  }

  /** The notes built for `names` in order; unreadable files are skipped. */
  function Listed(names: seq<string>, files: map<string, string>): seq<NoteServer.Note>
  {
    if names == [] then []
    else
      var last := names[|names| - 1];
      Listed(names[..|names| - 1], files) + (if last in files then [Describe(last, files[last])] else [])
  }

  /**
   * The listed notes are exactly the descriptions of the readable `.md` files of the listing:
   * each one comes from such a file and has a non-empty category, and each such file gets one.
   */
  lemma {:induction false} ListedNotes(listing: seq<string>, files: map<string, string>)
    ensures var notes := Listed(Seqs.Filter(listing, NoteServer.IsMarkdownName), files);
      && (forall n :: n in notes ==>
            && n.filename in listing && NoteServer.IsMarkdownName(n.filename)
            && n.filename in files && n.content == files[n.filename]
            && n.category != [])
      && (forall name :: name in listing && NoteServer.IsMarkdownName(name) && name in files ==>
            Describe(name, files[name]) in notes)
  {
    var md := Seqs.Filter(listing, NoteServer.IsMarkdownName);
    ListedFrom(md, files);
    forall n | n in Listed(md, files)
      ensures n.filename in listing && NoteServer.IsMarkdownName(n.filename)
    {
      Seqs.FilterMembership(listing, NoteServer.IsMarkdownName, n.filename);
    }
    forall name | name in listing && NoteServer.IsMarkdownName(name) && name in files
      ensures Describe(name, files[name]) in Listed(md, files)
    {
      Seqs.FilterMembership(listing, NoteServer.IsMarkdownName, name);
    }
  }

  /** `Listed` describes every readable name it is given, and nothing else. */
  lemma {:induction false} ListedFrom(names: seq<string>, files: map<string, string>)
    ensures forall n :: n in Listed(names, files) ==>
      && n.filename in names && n.filename in files
      && n == Describe(n.filename, files[n.filename])
    ensures forall name :: name in names && name in files ==> Describe(name, files[name]) in Listed(names, files)
  {
    if names != [] {
      var init := names[..|names| - 1];
      ListedFrom(init, files);
      assert names == init + [names[|names| - 1]];
    }
  }

  /** `GET /api/memories` of the simplified server: one note per readable `.md` file, in listing order. */
  method ListMemories(listing: seq<string>, files: map<string, string>) returns (notes: seq<NoteServer.Note>)
    ensures notes == Listed(Seqs.Filter(listing, NoteServer.IsMarkdownName), files)
    ensures forall n :: n in notes ==>
      && n.filename in listing && NoteServer.IsMarkdownName(n.filename)
      && n.filename in files && n == Describe(n.filename, files[n.filename])
    ensures forall name :: name in listing && NoteServer.IsMarkdownName(name) && name in files ==>
      Describe(name, files[name]) in notes
  {
    var mdFiles := Seqs.Filter(listing, NoteServer.IsMarkdownName);
    notes := [];
    for i := 0 to |mdFiles|
      invariant notes == Listed(mdFiles[..i], files)
    {
      var filename := mdFiles[i];
      assert mdFiles[..i + 1][..i] == mdFiles[..i];
      if filename in files {
        notes := notes + [Describe(filename, files[filename])];
      }
    }
    assert mdFiles[..|mdFiles|] == mdFiles;
    ListedNotes(listing, files);
    ListedFrom(mdFiles, files);
  }
}

=== FILE: Wrappers.dfy ===
/** The Option value used for JavaScript's `undefined`. */
module Wrappers {

  /** `None` stands for a missing property (`undefined`), `Some(v)` for a present one. */
  datatype Option<+T> = None | Some(value: T) {
    function GetOr(default: T): T {
      match this
      case Some(v) => v
      case None => default
    }
  }
}
